=== FILE: README.md ===
# fasm: the Xonotic StackVM assembler, modelled in Dafny

`fasm.py` turns assembly source for the Xonotic StackVM into a console
configuration file. It runs in three steps:

1. A combinator grammar parses the source into a list of nodes. Each node is a
   label declaration (`name:`) or an opcode with an optional argument.
2. A first pass gives each label the address of the next opcode, that is the
   number of opcodes before it. A second pass turns each opcode into one
   instruction string, replacing a branch target with its address.
3. The instructions are written out as numbered console aliases,
   `alias __svm.k "instruction"`.

This project models those steps and proves what they promise. The modules
follow the script's structure:

- `Chars`: the character classes of the grammar's regular expressions, and
  decimal numerals as `int` reads them and `str` writes them.
- `Syntax`: the nodes, opcodes, arguments, errors, and which nodes the
  grammar can produce (`WellFormed`).
- `Grammar`: the parser, as functions from a source string and a position to
  an optional result and the position after it. Alternatives are tried in the
  grammar's order and the first that succeeds wins.
- `GrammarFacts`: what the parser guarantees. Keywords match only as whole
  words, a label is tried before an opcode, and the whole input must be read.
  Every parsed node is well formed. Writing well-formed nodes back as source
  and parsing that gives the same nodes.
- `Resolver`: the label-table loop, proved against `LabelTable` and
  `CountOpcodes`.
- `Generator`: the code-generation loop, proved against `Generate`. Also the
  renamed opcode names and reading an instruction back.
- `Emission`: the output loop, proved against `Directives`, and reading the
  output back.
- `Assembler`: the three steps together, with the end-to-end error and
  output properties.

## Model

| member | source | states |
|---|---|---|
| Chars.NatToString | fasm.py:201 | an address is written as a non-empty decimal numeral without leading zeros, and that numeral reads back as the address |
| Chars.CanonicalNumeral | fasm.py:51 | a numeral without leading zeros is exactly what `str` writes for the value `int` reads from it |
| Syntax.Word | fasm.py:78-123 | every opcode keyword is a non-empty word of lower-case letters |
| Syntax.WordInjective | fasm.py:78-123 | no two opcodes share a keyword |
| Syntax.Name | fasm.py:105-118 | the opcode string a node carries, with the `.result(...)` renames; see `RenamedNameShape`, `NameInjective` and `NameReadsBack` |
| Grammar.SkipSpace | fasm.py:22 | `\s*` stops at the end of the input or at a non-whitespace character, never before where it started |
| Grammar.SkipSpaceSpaces | fasm.py:22 | everything `\s*` skips is whitespace |
| Grammar.WordEnd | fasm.py:40 | the run of word characters that `\b` bounds stops at the end or at a non-word character |
| Grammar.WordEndChars | fasm.py:40 | everything in that run is a word character |
| Grammar.DigitsEnd | fasm.py:51-52 | the `[0-9]*` run reads only digits and stops at the end or at a non-digit |
| Grammar.IntegerEnd | fasm.py:51 | `[0-9]+` reads at least one character, all digits, and stops at the end or at a non-digit |
| Grammar.FloatEnd | fasm.py:52 | `[0-9]*[.][0-9]+`: the leading digits are followed by the point and at least one more character, all within the input; `FloatOperandRoundTrip` shows it reads a whole float literal |
| Grammar.Literal | fasm.py:35-40 | a keyword literal that matches consumes at least the keyword and stays in the input |
| Grammar.Keyword | fasm.py:83-120 | a keyword choice that succeeds yields one of its opcodes, whose literal matches at that position with the returned end |
| Grammar.Identifier | fasm.py:46 | an identifier is never empty and stays in the input |
| Grammar.IdentifierRead | fasm.py:46 | what the identifier parser reads matches `[A-Za-z_][A-Za-z0-9_]*` |
| Grammar.PushOperand | fasm.py:51-78 | the operand alternatives of fasm.py:51-58 and the `/`-identifier one of fasm.py:78, in that order; a push operand that is read consumes at least one character; see `PushOperandRoundTrip`, `BooleanOperand` and `PushOperandWellFormed` |
| Grammar.PushOp | fasm.py:78 | a push statement consumes input |
| Grammar.Bare | fasm.py:78-123 | a keyword without argument consumes input |
| Grammar.WithIdentifier | fasm.py:102 | a keyword followed by an identifier consumes input |
| Grammar.FirstOf | fasm.py:136 | an ordered choice that succeeds consumes input |
| Grammar.OpcodeBody | fasm.py:136 | the opcode choice over the eight alternatives in the grammar's order (`OpcodeForms`) consumes input when it succeeds; `OpcodeBodySelects` and `OpcodeBodyFacts` state which alternative answers and what it yields |
| Grammar.OpcodeStatement | fasm.py:137 | an opcode token, with the whitespace after it, consumes input |
| Grammar.LabelStatement | fasm.py:67 | a label token consumes input |
| Grammar.Statement | fasm.py:139 | every statement consumes input, so `many()` makes progress |
| Grammar.Statements | fasm.py:142 | `statement.many()` up to the end of the input; see `StatementsWellFormed`, `StatementsRoundTrip` and `StatementsStopAt` |
| Grammar.Parse | fasm.py:142-155 | `program.parse(source)`; see `ParseRoundTrip`, `ParseIsCanonical`, `ParseRejectsLeftover` and its instances, and `StatementsWellFormed` |
| GrammarFacts.LiteralIsWholeWord | fasm.py:35-40 | keyword boundary: a keyword matches exactly when it is the whole run of word characters at that position (`pop` never matches in `popular`), and it then consumes the whitespace after it |
| GrammarFacts.KeywordFinds | fasm.py:83-120 | a keyword choice over a group finds the keyword standing at that position exactly when the group contains it |
| GrammarFacts.PushAbsent | fasm.py:78-83 | `push` fails wherever another keyword is the whole word |
| GrammarFacts.KeywordsDisjoint | fasm.py:136 | every opcode's keyword belongs to exactly one alternative of the opcode choice |
| GrammarFacts.FirstOfPicks | fasm.py:136 | an ordered choice that succeeds yields what one of its alternatives yields |
| GrammarFacts.FirstOfOnly | fasm.py:136 | when every alternative but one fails, the choice yields what that one yields |
| GrammarFacts.OpcodeBodySelects | fasm.py:136-137 | on a line whose first word is an opcode's keyword, the opcode choice yields what that opcode's own alternative yields |
| GrammarFacts.PushOperandWellFormed | fasm.py:78 | every push operand read is an integer, a float literal, or `/` followed by one identifier (the booleans are read as the integers 1 and 0, see `BooleanOperand`) |
| GrammarFacts.OpcodeBodyFacts | fasm.py:136-137 | an opcode read is well formed, and its keyword is the whole first word |
| GrammarFacts.StatementWellFormed | fasm.py:139 | every statement read is a well-formed node |
| GrammarFacts.StatementsWellFormed | fasm.py:142 | every node of a successful parse is well formed |
| GrammarFacts.StatementStartsWithWholeWord | fasm.py:139 | a label's name, or an opcode's keyword, is the whole first word of its statement, and a label's name is followed by its colon |
| GrammarFacts.KeywordColonIsLabel | fasm.py:139 | a label is tried before an opcode: where an argument-less keyword is followed directly by a colon, the opcode alternative alone would read the keyword, yet the statement read is a label named after it (`pop:` is a label) |
| GrammarFacts.IntOperandRoundTrip | fasm.py:51 | an integer written in decimal and followed by a newline is read back as that integer by the push operand parser (without the newline, `12.5` would be read as a float) |
| GrammarFacts.FloatOperandRoundTrip | fasm.py:52-53 | a float literal followed by a newline is read whole as a float, before the integer alternative can take its leading digits |
| GrammarFacts.TextOperandRoundTrip | fasm.py:78 | `/` followed by an identifier and then a newline is read as one string that keeps the `/` |
| GrammarFacts.PushOperandRoundTrip | fasm.py:78 | every push operand (float, integer, string) written out and followed by a newline is read back as itself; the float alternative is tried before the integer one |
| GrammarFacts.LabelNodeRoundTrip | fasm.py:67 | a label written on its own line parses back to itself and consumes the newline |
| GrammarFacts.BareNodeRoundTrip | fasm.py:78-123 | an opcode without argument written on its own line parses back to itself |
| GrammarFacts.BooleanOperand | fasm.py:56-58 | `true` and `false`, standing as whole words after `push`, are read as the integers 1 and 0, and the whitespace after them is skipped |
| GrammarFacts.PushNodeRoundTrip | fasm.py:78 | a push line parses back to the same push and operand |
| GrammarFacts.OperandNodeRoundTrip | fasm.py:102-120 | a branch or variable line parses back to the same opcode and identifier |
| GrammarFacts.StatementRoundTrip | fasm.py:139 | every well-formed node written as one line parses back to itself |
| GrammarFacts.StatementsRoundTrip | fasm.py:142 | a list of well-formed nodes written one per line parses back to the same list |
| GrammarFacts.ParseRoundTrip | fasm.py:142 | parsing the source text of any list of well-formed nodes gives that list |
| GrammarFacts.ParseIsCanonical | fasm.py:142-155 | every accepted program parses to the same nodes after being rewritten one statement per line |
| GrammarFacts.StatementNotAtStart | fasm.py:139 | no statement starts with a character that can start neither a keyword nor a label |
| GrammarFacts.StatementsStopAt | fasm.py:142 | when the statements are followed by input on which `statement.many()` then fails, reading from their start fails too: the statements before it do not make the parse succeed |
| GrammarFacts.ParseRejectsLeftover | fasm.py:142-155 | the whole input must be consumed: a program followed by input that starts no further statements is rejected, not read as the program before it |
| GrammarFacts.ParseRejectsTrailing | fasm.py:142-155 | a program followed by a character that starts neither a keyword nor a label is rejected |
| GrammarFacts.KeywordNotWord | fasm.py:83-120 | a keyword choice fails wherever the whole word is no keyword at all |
| GrammarFacts.UnknownWordNotStatement | fasm.py:139 | an identifier that is no keyword, ending the input, is neither a label (no colon) nor an opcode |
| GrammarFacts.ParseRejectsUnknownWord | fasm.py:142-155 | a program followed by an unknown word, such as `pop` then `foo`, is rejected |
| GrammarFacts.DanglingPointOperand | fasm.py:51-53 | a numeral followed by a point and nothing more is not a float; the integer alternative reads the numeral and leaves the point |
| GrammarFacts.DanglingPointStatement | fasm.py:78 | `push`, a blank and such a numeral are read as a push of that integer, ending at the point |
| GrammarFacts.DanglingPointRejected | fasm.py:139-142 | the point left over starts no statement, so the statements from the push on fail |
| GrammarFacts.ParseRejectsDanglingPoint | fasm.py:142-155 | a program ending in `push 1.` is rejected: the point is not part of any float |
| Resolver.CountOpcodes | fasm.py:169-170 | the address counter never exceeds the number of nodes, and equals it exactly when every node is an opcode |
| Resolver.LabelTable | fasm.py:158-170 | the table the first pass builds; see `LabelTableDomain`, `LabelTableLastWins`, `LabelTableBound` and `ResolveLabels` |
| Resolver.CountOpcodesAppend | fasm.py:169-170 | addresses add up piece by piece |
| Resolver.CountOpcodesMonotone | fasm.py:169-170 | the address never decreases along the program |
| Resolver.LabelTableDomain | fasm.py:164-167 | a name is in the label table exactly when the program declares it |
| Resolver.LabelTableLastWins | fasm.py:164-167 | last declaration wins: a label maps to the number of opcodes before its last declaration |
| Resolver.LabelTableBound | fasm.py:166-167 | no label's address exceeds the number of opcodes |
| Resolver.ResolveLabels | fasm.py:158-170 | the first pass builds the last-wins label table and ends with the address counter equal to the number of opcodes |
| Generator.Instruction | fasm.py:191-207 | an instruction fails exactly for a branch whose target is not a table key, and the error names that target |
| Generator.Generate | fasm.py:179-209 | a successful second pass gives exactly one instruction per opcode |
| Generator.GenerateOk | fasm.py:191-198 | the second pass succeeds exactly when no opcode is a branch to a missing label |
| Generator.GenerateError | fasm.py:196-198 | a failed second pass reports the first branch to a missing label, by name |
| Generator.GenerateErrorStays | fasm.py:196-198 | the first error stops the pass: later nodes do not change it |
| Generator.GenerateAt | fasm.py:181-209 | the opcode at position `j` gives the instruction at index `CountOpcodes(ast[..j])`, its address |
| Generator.GenerateCode | fasm.py:176-209 | the code-generation loop computes `Generate`: it skips labels, appends one instruction per opcode, and stops at the first undefined label |
| Generator.ResolvedIffDeclared | fasm.py:196 | with the table built from the same program, a branch resolves exactly when its target is declared anywhere in the program |
| Generator.BranchTarget | fasm.py:200-201 | a branch's operand is the address of the first opcode after the last declaration of its target |
| Generator.LabelRun | fasm.py:184-185 | a run of labels does not move the address |
| Generator.NameIsWord | fasm.py:105-118 | every output opcode name is a non-empty word of lower-case letters and underscores |
| Generator.RenamedNameShape | fasm.py:105-118 | exactly the comparisons and variable operations are renamed (to `is...` or a name with `_`); every other opcode keeps its keyword |
| Generator.RenamedNameInjective | fasm.py:105-118 | no two renamed opcodes share an output name |
| Generator.NameInjective | fasm.py:105-118 | no two opcodes share an output name |
| Generator.NameReadsBack | fasm.py:105-118 | an output name identifies its opcode |
| Generator.InstructionReadsBack | fasm.py:201-207 | an instruction reads back as its opcode plus nothing, the target's address, or the argument as written |
| Generator.BranchOperandIsAddress | fasm.py:200-201 | a branch instruction's operand is the decimal address of its target |
| Generator.TextPlain | fasm.py:78 | identifiers, with or without a leading `/`, contain no quote or newline |
| Generator.FloatPlain | fasm.py:52 | float literals contain no quote or newline |
| Generator.InstructionPlain | fasm.py:201-207 | the instruction of a well-formed opcode contains no quote or newline, so it fits on one output line |
| Generator.GeneratePlain | fasm.py:179-209 | every instruction generated from a parsed program fits on one output line |
| Emission.Directive | fasm.py:216 | the output line `alias __svm.k "instruction"`; see `ReadDirectiveOf` |
| Emission.Directives | fasm.py:213-216 | the output for a list of instructions numbered from a start index; see `DirectivesAppend`, `Emit` and `DirectivesReadBack` |
| Emission.DirectivesAppend | fasm.py:215-216 | appending an instruction appends one line, at the next index |
| Emission.Emit | fasm.py:212-216 | the emission loop writes one `alias __svm.k "instruction"` line per instruction, numbered from 0 in order |
| Emission.ReadDirective | fasm.py:216 | reading one output line consumes text |
| Emission.ReadDirectiveOf | fasm.py:216 | an output line of a plain instruction reads back as its index and instruction |
| Emission.DirectivesReadBack | fasm.py:213-216 | the whole output reads back as the instruction list, each at its index |
| Assembler.Assemble | fasm.py:155-216 | the whole run from source text to output text or error; see `AssembleSource`, `AssembleErrors`, `AssembleOutput` and `AssembleCanonical` |
| Assembler.AssembleSource | fasm.py:155-218 | parse, label pass, generation pass and emission, run in sequence, compute `Assemble` |
| Assembler.UnresolvedIsUndeclared | fasm.py:191-198 | in a parsed program, the second pass fails on a node exactly when it is a branch to a label declared nowhere |
| Assembler.AssembleErrors | fasm.py:155-198 | a program that parses fails to assemble exactly when some branch targets an undeclared label, and the error names the first such target |
| Assembler.AssembleOutput | fasm.py:176-216 | a successful assembly writes one line per opcode, numbered from 0, and the line at an opcode's address holds that opcode's instruction |
| Assembler.AssembleCanonical | fasm.py:142-218 | rewriting a parsed program one statement per line does not change the assembler's output |

## Where the code and its comments differ

- A pushed string keeps its `/`. The comment at fasm.py:72-76 presents the
  `/` as a prefix that marks a string, but `FORWARD_SLASH + IDENTIFIER`
  concatenates both results, so `push /hello` becomes the instruction
  `push /hello`. The model follows the code (`Text` holds `/hello`).

## Behaviour worth knowing

- Whitespace is Python's `\s`: the characters for which `str.isspace()`
  holds, not only blank, tab and newline (`Chars.IsSpace`).
- Integer literals are read by Python's `int`, with no fixed width, and the
  model reads them as unbounded `nat`s. The interpreter's limit on the
  number of digits `int` accepts is not modelled (see "## Left out").

## Left out

- The command line, reading the source file and writing the output file
  (fasm.py:9-17, 145-152, 212 and 218). `Assemble` takes the source text and
  returns the output text.
- Converting floats: the model keeps a float literal's text. Python's
  `float(...)` followed by `str(...)` would print `1.50` as `1.5` and `.5` as
  `0.5`, so the model's output differs for such literals.
- Error messages and parse positions: a parse failure is `SyntaxError`
  without parsy's expected-token list or position, and an undefined label is
  `UndefinedLabel(name)`.
- Grammar.PushOperand: the limit on the length of a decimal string that
  `int(...)` converts is not modelled. CPython 3.11 and later (and the 3.10.7
  and 3.9.14 security releases) set this limit to 4300 digits by default. On
  those interpreters, `push` followed by a longer integer literal makes
  fasm.py:51 raise an uncaught `ValueError`, so the script aborts without
  output. The model reads the literal as its value and assembles it.
- Grammar.Literal: `\b` is modelled with ASCII word characters, while
  Python's `\b` also treats non-ASCII letters and digits as word characters.
  A keyword followed directly by such a character is rejected by the source
  and accepted as a keyword by the model. The character after it then starts
  no statement, so both reject the program.
- The grammar's nested choices (`STACK_OP | ARITHMETIC_OP | ...`) are written
  as one flat ordered choice. Ordered choice is associative, so what is
  parsed does not change.
- The `Unknown node` branch (fasm.py:172-173) cannot be reached, because the
  parser only produces labels and opcodes.
- The second `address_counter` (fasm.py:176 and 209) is counted but never
  read, so it is not modelled.
- Generator.Instruction: a branch whose argument is not a string cannot come
  from the parser. The model reports it as an undefined label.

=== FILE: Assembler.dfy ===
/**
 * The assembler from source text to output: parse, give every label its
 * address, generate one instruction per opcode, and write the instructions
 * out as numbered aliases.
 */
module Assembler {
  import opened Syntax
  import opened Grammar
  import opened GrammarFacts
  import opened Resolver
  import opened Generator
  import opened Emission

  /** What assembling `source` yields: the output text, or the error that stops it. */
  function Assemble(source: string): Result<string> {
    match Parse(source)
    case Err(e) => Err(e)
    case Ok(ast) =>
      match Generate(ast, LabelTable(ast))
      case Err(e) => Err(e)
      case Ok(xs) => Ok(Directives(xs, 0))
  }

  /** The passes run one after the other, as the script runs them. */
  method AssembleSource(source: string) returns (r: Result<string>)
    ensures r == Assemble(source)
  {
    var parsed := Parse(source);
    if parsed.Err? {
      return Err(parsed.error);
    }
    var ast := parsed.value;
    var labels, _ := ResolveLabels(ast);
    var code := GenerateCode(ast, labels);
    if code.Err? {
      return Err(code.error);
    }
    var program := Emit(code.value);
    return Ok(program);
  }

  /** The node at `k` branches to a label the program never declares. */
  predicate BranchToUndeclared(ast: seq<Node>, k: nat)
    requires k < |ast|
  {
    ast[k].Opcode? && IsBranch(ast[k].op) && ast[k].arg.Some? && ast[k].arg.value.Text? &&
    forall j :: 0 <= j < |ast| ==> ast[j] != Label(ast[k].arg.value.text)
  }

  /** In a well-formed program, a node stops the second pass exactly when it branches to an undeclared label. */
  lemma UnresolvedIsUndeclared(ast: seq<Node>, k: nat)
    requires k < |ast| && WellFormed(ast[k])
    ensures Unresolved(ast[k], LabelTable(ast)) <==> BranchToUndeclared(ast, k)
  {
    if ast[k].Opcode? && IsBranch(ast[k].op) {
      ResolvedIffDeclared(ast, k);
    }
  }

  /**
   * Assembly of a source that parses fails exactly when some branch names a
   * label declared nowhere in the program, and the error names the first
   * such branch's target.
   */
  lemma AssembleErrors(source: string)
    requires Parse(source).Ok?
    ensures var ast := Parse(source).value;
            Assemble(source).Err? <==> exists k :: 0 <= k < |ast| && BranchToUndeclared(ast, k)
    ensures var ast := Parse(source).value;
            Assemble(source).Err? ==>
              exists k ::
                0 <= k < |ast| && BranchToUndeclared(ast, k) &&
                Assemble(source).error == UndefinedLabel(ast[k].arg.value.text) &&
                forall j :: 0 <= j < k ==> !BranchToUndeclared(ast, j)
  {
    var ast := Parse(source).value;
    var labels := LabelTable(ast);
    StatementsWellFormed(source, SkipSpace(source, 0));
    forall k | 0 <= k < |ast|
      ensures Unresolved(ast[k], labels) <==> BranchToUndeclared(ast, k)
    {
      assert ast[k] in ast;
      UnresolvedIsUndeclared(ast, k);
    }
    GenerateOk(ast, labels);
    if Generate(ast, labels).Err? {
      GenerateError(ast, labels);
    }
  }

  /**
   * The output of a successful assembly holds one line per opcode, numbered
   * from 0, and the line at an opcode's address holds that opcode's
   * instruction.
   */
  lemma AssembleOutput(source: string)
    requires Assemble(source).Ok?
    ensures Parse(source).Ok?
    ensures var ast := Parse(source).value;
            var xs := ReadDirectives(Assemble(source).value, 0);
            xs.Some? && |xs.value| == CountOpcodes(ast) &&
            forall j :: 0 <= j < |ast| && ast[j].Opcode? ==>
              CountOpcodes(ast[..j]) < |xs.value| &&
              Instruction(ast[j].op, ast[j].arg, LabelTable(ast)) == Ok(xs.value[CountOpcodes(ast[..j])])
  {
    var ast := Parse(source).value;
    var labels := LabelTable(ast);
    var xs := Generate(ast, labels).value;
    StatementsWellFormed(source, SkipSpace(source, 0));
    GeneratePlain(ast, labels);
    DirectivesReadBack(xs, 0);
    forall j | 0 <= j < |ast| && ast[j].Opcode?
      ensures CountOpcodes(ast[..j]) < |xs| && Instruction(ast[j].op, ast[j].arg, labels) == Ok(xs[CountOpcodes(ast[..j])])
    {
      GenerateAt(ast, labels, j);
    }
  }

  /** Writing a parsed program back out as source and assembling that gives the same output. */
  lemma AssembleCanonical(source: string)
    requires Parse(source).Ok?
    ensures Assemble(Unparse(Parse(source).value)) == Assemble(source)
  {
    ParseIsCanonical(source);
  }
}

=== FILE: Chars.dfy ===
/**
 * Character classes of the assembler's grammar and decimal numerals.
 *
 * The grammar's regular expressions use `\s` (Python's Unicode whitespace),
 * `[0-9]`, `[A-Za-z_]` and `[A-Za-z0-9_]`; integer operands are converted
 * with `int(...)` and written back with `str(...)`.
 */
module Chars {

  /** `[0-9]` */
  predicate IsDigit(c: char) {
    '0' <= c <= '9'
  }

  /** `[A-Za-z_]`: the characters an identifier may start with. */
  predicate IsIdentStart(c: char) {
    'A' <= c <= 'Z' || 'a' <= c <= 'z' || c == '_'
  }

  /** `[A-Za-z0-9_]`: the characters an identifier may continue with. */
  predicate IsWordChar(c: char) {
    IsIdentStart(c) || IsDigit(c)
  }

  /** `\s` on a Python `str`: exactly the characters for which `str.isspace()` holds. */
  predicate IsSpace(c: char) {
    '\t' <= c <= '\r' || '\U{1C}' <= c <= ' ' || c == '\U{85}' || c == '\U{A0}' || c == '\U{1680}'
    || '\U{2000}' <= c <= '\U{200A}' || c == '\U{2028}' || c == '\U{2029}' || c == '\U{202F}'
    || c == '\U{205F}' || c == '\U{3000}'
  }

  /** The position of the first `c` in `s` at or after `k`, or `|s|` if there is none. */
  function IndexFrom(s: string, k: nat, c: char): (p: nat)
    requires k <= |s|
    ensures k <= p <= |s|
    ensures forall j :: k <= j < p ==> s[j] != c
    ensures p < |s| ==> s[p] == c
    decreases |s| - k
  {
    if k < |s| && s[k] != c then IndexFrom(s, k + 1, c) else k
  }

  /** Text without `c` followed by `c` ends where `IndexFrom` says. */
  lemma IndexFromAt(s: string, k: nat, c: char, p: nat)
    requires k <= p < |s| && s[p] == c
    requires forall j :: k <= j < p ==> s[j] != c
    ensures IndexFrom(s, k, c) == p
  {
  }

  /** Where `c` does not occur from `k` on, the search runs to the end. */
  lemma {:induction false} IndexFromAbsent(s: string, k: nat, c: char)
    requires k <= |s| && forall j :: k <= j < |s| ==> s[j] != c
    ensures IndexFrom(s, k, c) == |s|
    decreases |s| - k
  {
    if k < |s| {
      IndexFromAbsent(s, k + 1, c);
    }
  }

  predicate AllDigits(t: string) {
    forall k :: 0 <= k < |t| ==> IsDigit(t[k])
  }

  function DigitValue(c: char): (d: nat)
    requires IsDigit(c)
    ensures d < 10
  {
    c as int - '0' as int
  }

  function DigitChar(d: nat): (c: char)
    requires d < 10
    ensures IsDigit(c) && DigitValue(c) == d
  {
    ('0' as int + d) as char
  }

  /** The value of a numeral, as Python's `int(t)` gives it (leading zeros allowed). */
  function DecimalValue(t: string): nat
    requires AllDigits(t)
  {
    if t == [] then 0 else 10 * DecimalValue(t[..|t| - 1]) + DigitValue(t[|t| - 1])
  }

  /**
   * The numeral Python's `str(n)` writes for a non-negative integer: never
   * empty, digits only, no leading zero, and reading it back gives `n`.
   */
  function NatToString(n: nat): (r: string)
    ensures 0 < |r| && AllDigits(r)
    ensures |r| > 1 ==> r[0] != '0'
    ensures DecimalValue(r) == n
  {
    if n < 10 then [DigitChar(n)]
    else
      var r := NatToString(n / 10) + [DigitChar(n % 10)];
      assert r[..|r| - 1] == NatToString(n / 10);
      r
  }

  /** A numeral without leading zeros is the one `str` writes for its value. */
  lemma {:induction false} CanonicalNumeral(t: string)
    requires 0 < |t| && AllDigits(t)
    requires |t| > 1 ==> t[0] != '0'
    ensures NatToString(DecimalValue(t)) == t
  {
    if |t| > 1 {
      var init := t[..|t| - 1];
      assert init[0] == t[0];
      CanonicalNumeral(init);
      LeadingDigitBound(init);
      var v := DecimalValue(t);
      assert v / 10 == DecimalValue(init) && v % 10 == DigitValue(t[|t| - 1]);
      assert 10 <= v;
    }
  }

  /** A numeral is worth at least its leading digit. */
  lemma {:induction false} LeadingDigitBound(t: string)
    requires 0 < |t| && AllDigits(t)
    ensures DigitValue(t[0]) <= DecimalValue(t)
  {
    if |t| > 1 {
      var init := t[..|t| - 1];
      assert init[0] == t[0];
      LeadingDigitBound(init);
    }
  }
}

=== FILE: Emission.dfy ===
/**
 * Linking: the instructions are written out as console aliases, the one at
 * index `k` as the line `alias __svm.k "instruction"`, in order from 0.
 */
module Emission {
  import opened Chars
  import opened Syntax
  import opened Grammar
  import opened GrammarFacts
  import opened Generator

  const AliasPrefix: string := "alias __svm."

  /** The output line that stores `instruction` at `index`. */
  function Directive(index: nat, instruction: string): string {
    AliasPrefix + NatToString(index) + " \"" + instruction + "\"\n"
  }

  /** The output for `xs`, the first of them at index `first`. */
  function Directives(xs: seq<string>, first: nat): string
    decreases |xs|
  {
    if xs == [] then "" else Directive(first, xs[0]) + Directives(xs[1..], first + 1)
  }

  /** Appending an instruction appends its line, at the next index. */
  lemma {:induction false} DirectivesAppend(xs: seq<string>, x: string, first: nat)
    ensures Directives(xs + [x], first) == Directives(xs, first) + Directive(first + |xs|, x)
    decreases |xs|
  {
    if xs == [] {
      assert Directives([x], first) == Directive(first, x) + Directives([], first + 1);
    } else {
      assert (xs + [x])[0] == xs[0] && (xs + [x])[1..] == xs[1..] + [x];
      DirectivesAppend(xs[1..], x, first + 1);
    }
  }

  /** The emission loop: one line per instruction, numbered from 0. */
  method Emit(instructions: seq<string>) returns (program: string)
    ensures program == Directives(instructions, 0)
  {
    program := "";
    var index := 0;
    while index < |instructions|
      invariant 0 <= index <= |instructions|
      invariant program == Directives(instructions[..index], 0)
    {
      assert instructions[..index + 1] == instructions[..index] + [instructions[index]];
      DirectivesAppend(instructions[..index], instructions[index], 0);
      program := program + AliasPrefix + NatToString(index) + " \"" + instructions[index] + "\"\n";
      index := index + 1;
    }
    assert instructions[..index] == instructions;
  }

  /** The first line of `s` read as a directive: its index, its instruction, and the rest of `s`. */
  function ReadDirective(s: string): (r: Option<(nat, string, string)>)
    ensures r.Some? ==> |r.value.2| < |s|
  {
    var n := |AliasPrefix|;
    if n <= |s| && s[..n] == AliasPrefix then
      var d := DigitsEnd(s, n);
      if n < d && d + 1 < |s| && s[d] == ' ' && s[d + 1] == '"' then
        var q := IndexFrom(s, d + 2, '"');
        if q + 1 < |s| && s[q + 1] == '\n' then Some((DecimalValue(s[n..d]), s[d + 2..q], s[q + 2..]))
        else None
      else None
    else None
  }

  /** The instructions of an output whose lines are numbered from `first` on, in order. */
  function ReadDirectives(s: string, first: nat): Option<seq<string>>
    decreases |s|
  {
    if s == [] then Some([])
    else
      match ReadDirective(s)
      case None => None
      case Some((k, x, rest)) =>
        if k != first then None
        else
          match ReadDirectives(rest, first + 1)
          case None => None
          case Some(xs) => Some([x] + xs)
  }

  /** A line holding a plain instruction reads back as its index and instruction. */
  lemma ReadDirectiveOf(index: nat, x: string, rest: string)
    requires Plain(x)
    ensures ReadDirective(Directive(index, x) + rest) == Some((index, x, rest))
  {
    var t := NatToString(index);
    var s := Directive(index, x) + rest;
    var n := |AliasPrefix|;
    var d := n + |t|;
    var q := d + 2 + |x|;
    assert s == AliasPrefix + t + [' ', '"'] + x + ['"', '\n'] + rest;
    assert s[..n] == AliasPrefix;
    assert s[n..d] == t;
    DigitsEndAt(s, n, d);
    forall j | d + 2 <= j < q ensures s[j] != '"' {
      assert s[j] == x[j - d - 2];
    }
    IndexFromAt(s, d + 2, '"', q);
    assert s[d + 2..q] == x;
    assert s[q + 2..] == rest;
  }

  /** The output reads back as the instructions it was written from, at their indices. */
  lemma {:induction false} DirectivesReadBack(xs: seq<string>, first: nat)
    requires forall x :: x in xs ==> Plain(x)
    ensures ReadDirectives(Directives(xs, first), first) == Some(xs)
    decreases |xs|
  {
    if xs != [] {
      assert xs[0] in xs;
      assert forall x :: x in xs[1..] ==> x in xs;
      DirectivesReadBack(xs[1..], first + 1);
      ReadDirectivesStep(xs, first);
    }
  }

  /** If the lines after the first read back, so do all of them. */
  lemma ReadDirectivesStep(xs: seq<string>, first: nat)
    requires xs != [] && Plain(xs[0])
    requires ReadDirectives(Directives(xs[1..], first + 1), first + 1) == Some(xs[1..])
    ensures ReadDirectives(Directives(xs, first), first) == Some(xs)
  {
    var rest := Directives(xs[1..], first + 1);
    ReadDirectiveOf(first, xs[0], rest);
    ReadDirectivesCons(Directive(first, xs[0]) + rest, first, xs[0], rest, xs[1..]);
    assert [xs[0]] + xs[1..] == xs;
  }

  /** A line read with the expected index, then the rest read, give the whole list. */
  lemma ReadDirectivesCons(s: string, first: nat, x: string, rest: string, xs: seq<string>)
    requires ReadDirective(s) == Some((first, x, rest)) && ReadDirectives(rest, first + 1) == Some(xs)
    ensures ReadDirectives(s, first) == Some([x] + xs)
  {
  }
}

=== FILE: Generator.dfy ===
/**
 * The second pass of the backend: every opcode node becomes one instruction
 * string, `name` or `name operand`, with the label of a branch replaced by
 * its address. Label nodes produce nothing. The first branch to a label the
 * table lacks stops the pass.
 */
module Generator {
  import opened Chars
  import opened Syntax
  import opened Resolver

  /** The instruction for one opcode, given the label table. */
  function Instruction(op: Op, arg: Option<Arg>, labels: map<string, nat>): (r: Result<string>)
    ensures r.Err? <==> arg.Some? && IsBranch(op) && !(arg.value.Text? && arg.value.text in labels)
    ensures r.Err? ==> r.error == UndefinedLabel(ArgText(arg.value))
  {
    if arg.Some? && IsBranch(op) then
      if arg.value.Text? && arg.value.text in labels then Ok(Name(op) + " " + NatToString(labels[arg.value.text]))
      else Err(UndefinedLabel(ArgText(arg.value)))
    else if arg.None? then Ok(Name(op))
    else Ok(Name(op) + " " + ArgText(arg.value))
  }

  /**
   * The instructions for a program, in order, one per opcode; the first
   * undefined branch target is the error.
   */
  function Generate(ast: seq<Node>, labels: map<string, nat>): (r: Result<seq<string>>)
    ensures r.Ok? ==> |r.value| == CountOpcodes(ast)
  {
    if ast == [] then Ok([])
    else
      var init := ast[..|ast| - 1];
      var n := ast[|ast| - 1];
      match Generate(init, labels)
      case Err(e) => Err(e)
      case Ok(xs) =>
        if n.Label? then Ok(xs)
        else
          match Instruction(n.op, n.arg, labels)
          case Err(e) => Err(e)
          case Ok(x) => Ok(xs + [x])
  }

  /** The pass fails on a node exactly when that node is a branch whose target is missing. */
  predicate Unresolved(n: Node, labels: map<string, nat>) {
    n.Opcode? && Instruction(n.op, n.arg, labels).Err?
  }

  /** Once the pass has failed on a prefix, the rest of the program does not change the error. */
  lemma {:induction false} GenerateErrorStays(ast: seq<Node>, i: nat, labels: map<string, nat>)
    requires i <= |ast| && Generate(ast[..i], labels).Err?
    ensures Generate(ast, labels) == Generate(ast[..i], labels)
    decreases |ast| - i
  {
    if i < |ast| {
      assert ast[..i + 1][..i] == ast[..i];
      GenerateErrorStays(ast, i + 1, labels);
    } else {
      assert ast[..i] == ast;
    }
  }

  /** The pass succeeds exactly when no opcode is a branch to a missing label. */
  lemma {:induction false} GenerateOk(ast: seq<Node>, labels: map<string, nat>)
    ensures Generate(ast, labels).Ok? <==> forall k :: 0 <= k < |ast| ==> !Unresolved(ast[k], labels)
    decreases |ast|
  {
    if ast != [] {
      var init := ast[..|ast| - 1];
      GenerateOk(init, labels);
      assert forall k :: 0 <= k < |init| ==> init[k] == ast[k];
    }
  }

  /**
   * A failed pass reports the first unresolved branch: the error names its
   * target and every node before it is resolved.
   */
  lemma {:induction false} GenerateError(ast: seq<Node>, labels: map<string, nat>)
    requires Generate(ast, labels).Err?
    ensures exists j ::
              0 <= j < |ast| && Unresolved(ast[j], labels) &&
              Generate(ast, labels).error == UndefinedLabel(ArgText(ast[j].arg.value)) &&
              forall k :: 0 <= k < j ==> !Unresolved(ast[k], labels)
    decreases |ast|
  {
    var init := ast[..|ast| - 1];
    assert forall k :: 0 <= k < |init| ==> init[k] == ast[k];
    if Generate(init, labels).Err? {
      GenerateError(init, labels);
      var j :| 0 <= j < |init| && Unresolved(init[j], labels)
        && Generate(init, labels).error == UndefinedLabel(ArgText(init[j].arg.value))
        && forall k :: 0 <= k < j ==> !Unresolved(init[k], labels);
      assert Unresolved(ast[j], labels);
    } else {
      GenerateOk(init, labels);
      assert Unresolved(ast[|ast| - 1], labels);
    }
  }

  /**
   * The opcode at position `j` of the program produces the instruction at
   * index `CountOpcodes(ast[..j])`, its address.
   */
  lemma {:induction false} GenerateAt(ast: seq<Node>, labels: map<string, nat>, j: nat)
    requires Generate(ast, labels).Ok?
    requires j < |ast| && ast[j].Opcode?
    ensures CountOpcodes(ast[..j]) < |Generate(ast, labels).value|
    ensures Instruction(ast[j].op, ast[j].arg, labels) == Ok(Generate(ast, labels).value[CountOpcodes(ast[..j])])
    decreases |ast|
  {
    var init := ast[..|ast| - 1];
    var xs := Generate(init, labels).value;
    if j < |ast| - 1 {
      assert init[j] == ast[j] && init[..j] == ast[..j];
      GenerateAt(init, labels, j);
    } else {
      assert init == ast[..j];
    }
  }

  /**
   * The second pass over the program. Labels are skipped; each opcode appends
   * its instruction, and an undefined branch target stops the pass.
   */
  method GenerateCode(ast: seq<Node>, labels: map<string, nat>) returns (r: Result<seq<string>>)
    ensures r == Generate(ast, labels)
  {
    var instructions: seq<string> := [];
    var i := 0;
    while i < |ast|
      invariant 0 <= i <= |ast|
      invariant Generate(ast[..i], labels) == Ok(instructions)
    {
      var node := ast[i];
      assert ast[..i + 1][..i] == ast[..i];
      if node.Opcode? {
        var op, arg := node.op, node.arg;
        if arg.Some? && IsBranch(op) {
          if !(arg.value.Text? && arg.value.text in labels) {
            GenerateErrorStays(ast, i + 1, labels);
            return Err(UndefinedLabel(ArgText(arg.value)));
          }
          instructions := instructions + [Name(op) + " " + NatToString(labels[arg.value.text])];
        } else if arg.None? {
          instructions := instructions + [Name(op)];
        } else {
          instructions := instructions + [Name(op) + " " + ArgText(arg.value)];
        }
      }
      i := i + 1;
    }
    assert ast[..i] == ast;
    return Ok(instructions);
  }

  /**
   * With the table the first pass builds from the same program, a branch is
   * resolved exactly when the program declares its target somewhere, before
   * or after the branch.
   */
  lemma ResolvedIffDeclared(ast: seq<Node>, k: nat)
    requires k < |ast| && ast[k].Opcode? && IsBranch(ast[k].op) && WellFormed(ast[k])
    ensures !Unresolved(ast[k], LabelTable(ast))
      <==> exists j :: 0 <= j < |ast| && ast[j] == Label(ast[k].arg.value.text)
  {
    LabelTableDomain(ast, ast[k].arg.value.text);
  }

  /**
   * A branch jumps to the right place: if the target's last declaration is
   * followed, with no opcode in between, by the opcode at `m`, the branch's
   * operand is the address of that opcode's instruction.
   */
  lemma BranchTarget(ast: seq<Node>, k: nat, m: nat)
    requires k < m < |ast| && ast[k].Label? && ast[m].Opcode?
    requires forall j :: k < j < |ast| ==> ast[j] != Label(ast[k].name)
    requires forall j :: k < j < m ==> ast[j].Label?
    ensures ast[k].name in LabelTable(ast)
    ensures LabelTable(ast)[ast[k].name] == CountOpcodes(ast[..m])
  {
    LabelTableLastWins(ast, k);
    LabelRun(ast, k, m);
  }

  /** A run of labels does not move the address. */
  lemma {:induction false} LabelRun(ast: seq<Node>, k: nat, m: nat)
    requires k <= m <= |ast|
    requires forall j :: k <= j < m ==> ast[j].Label?
    ensures CountOpcodes(ast[..m]) == CountOpcodes(ast[..k])
    decreases m - k
  {
    if k < m {
      LabelRun(ast, k, m - 1);
      CountOpcodesStep(ast, m - 1);
    }
  }

  /** Every opcode, in the order the grammar lists them. */
  const AllOps: seq<Op> := [
    Push, Pop, Dup, Dot, Add, Sub, Mul, Div, Pow, Min, Max, Jmp, Jif, Call, Ret,
    Eq, Ne, Lt, Le, Gt, Ge, Store, Load, GStore, GLoad, Hlt]

  /** The first opcode of `ops` whose output name is `t`, if there is one. */
  function Lookup(t: string, ops: seq<Op>): (r: Option<Op>)
    ensures r.Some? ==> r.value in ops && Name(r.value) == t
    decreases |ops|
  {
    if ops == [] then None else if Name(ops[0]) == t then Some(ops[0]) else Lookup(t, ops[1..])
  }

  /** The opcode whose output name is `t`, if there is one. */
  function OpNamed(t: string): Option<Op> {
    Lookup(t, AllOps)
  }

  /** An output name is lower-case letters and underscores, so it holds no space. */
  lemma NameIsWord(op: Op)
    ensures 0 < |Name(op)|
    ensures forall k :: 0 <= k < |Name(op)| ==> Name(op)[k] == '_' || 'a' <= Name(op)[k] <= 'z'
  {
  }

  /** The opcodes whose output name differs from their keyword. */
  predicate Renamed(op: Op) {
    op in {Eq, Ne, Lt, Le, Gt, Ge, Store, Load, GStore, GLoad}
  }

  /** A renamed opcode's name starts with `is` or holds an underscore; no keyword does either. */
  lemma RenamedNameShape(op: Op)
    ensures Renamed(op) <==> (Name(op)[0] == 'i' && Name(op)[1] == 's') || '_' in Name(op)
    ensures !Renamed(op) ==> Name(op) == Word(op)
  {
  }

  /** No two opcodes share an output name, renamed ones included. */
  lemma NameInjective(a: Op, b: Op)
    requires Name(a) == Name(b)
    ensures a == b
  {
    RenamedNameShape(a);
    RenamedNameShape(b);
    if Renamed(a) {
      RenamedNameInjective(a, b);
    } else {
      WordInjective(a, b);
    }
  }

  /** No two renamed opcodes share an output name. */
  lemma RenamedNameInjective(a: Op, b: Op)
    requires Renamed(a) && Renamed(b) && Name(a) == Name(b)
    ensures a == b
  {
    var w := Name(a);
    assert |w| == |Name(b)| && w[2] == Name(b)[2];
    if |w| > 3 { assert w[3] == Name(b)[3]; }
    if |w| > 5 { assert w[|w| - 1] == Name(b)[|w| - 1]; }
  }

  /** Looking up an opcode's name finds that opcode. */
  lemma {:induction false} LookupFinds(op: Op, ops: seq<Op>)
    requires op in ops
    ensures Lookup(Name(op), ops) == Some(op)
    decreases |ops|
  {
    if ops[0] != op {
      if Name(ops[0]) == Name(op) {
        NameInjective(ops[0], op);
      }
      LookupFinds(op, ops[1..]);
    }
  }

  /** An opcode's output name reads back as that opcode. */
  lemma NameReadsBack(op: Op)
    ensures OpNamed(Name(op)) == Some(op)
  {
    LookupFinds(op, AllOps);
  }

  /** An instruction read back: the opcode it names and its operand text, if it has one. */
  function ReadInstruction(x: string): Option<(Op, Option<string>)> {
    var p := IndexFrom(x, 0, ' ');
    match OpNamed(x[..p])
    case None => None
    case Some(op) => Some((op, if p == |x| then None else Some(x[p + 1..])))
  }

  /** A space after a word without spaces is the first one. */
  lemma FirstSpace(w: string, t: string)
    requires forall k :: 0 <= k < |w| ==> w[k] != ' '
    ensures IndexFrom(w + " " + t, 0, ' ') == |w|
    ensures (w + " " + t)[..|w|] == w && (w + " " + t)[|w| + 1..] == t
  {
    var x := w + " " + t;
    var p := IndexFrom(x, 0, ' ');
    assert x[|w|] == ' ';
    assert x[..|w|] == w;
    assert x[|w| + 1..] == t;
  }

  /** Text with no space in it. */
  predicate NoSpace(w: string) {
    forall k :: 0 <= k < |w| ==> w[k] != ' '
  }

  /** A name standing alone reads back as its opcode without operand. */
  lemma ReadAlone(w: string, op: Op)
    requires OpNamed(w) == Some(op) && NoSpace(w)
    ensures ReadInstruction(w) == Some((op, None))
  {
    IndexFromAbsent(w, 0, ' ');
    assert w[..|w|] == w;
  }

  /** A name, a space and an operand read back as the opcode and that operand. */
  lemma ReadWithOperand(w: string, t: string, op: Op)
    requires OpNamed(w) == Some(op) && NoSpace(w)
    ensures ReadInstruction(w + " " + t) == Some((op, Some(t)))
  {
    FirstSpace(w, t);
  }

  /**
   * An instruction reads back as its opcode and its operand: none for an
   * opcode without argument, the label's address in decimal for a branch,
   * and the argument as written otherwise.
   */
  lemma InstructionReadsBack(op: Op, arg: Option<Arg>, labels: map<string, nat>)
    requires Instruction(op, arg, labels).Ok?
    ensures arg.None? ==> ReadInstruction(Instruction(op, arg, labels).value) == Some((op, None))
    ensures arg.Some? && IsBranch(op) ==>
              ReadInstruction(Instruction(op, arg, labels).value) == Some((op, Some(NatToString(labels[arg.value.text]))))
    ensures arg.Some? && !IsBranch(op) ==>
              ReadInstruction(Instruction(op, arg, labels).value) == Some((op, Some(ArgText(arg.value))))
  {
    var w := Name(op);
    NameReadsBack(op);
    NameIsWord(op);
    assert NoSpace(w);
    if arg.None? {
      ReadAlone(w, op);
    } else if IsBranch(op) {
      ReadWithOperand(w, NatToString(labels[arg.value.text]), op);
    } else {
      ReadWithOperand(w, ArgText(arg.value), op);
    }
  }

  /** The operand a branch instruction reads back as is the target's address, in decimal. */
  lemma BranchOperandIsAddress(op: Op, arg: Option<Arg>, labels: map<string, nat>)
    requires Instruction(op, arg, labels).Ok? && arg.Some? && IsBranch(op)
    ensures ReadInstruction(Instruction(op, arg, labels).value).Some?
    ensures ReadInstruction(Instruction(op, arg, labels).value).value.1.Some?
    ensures var d := ReadInstruction(Instruction(op, arg, labels).value).value.1.value;
            AllDigits(d) && DecimalValue(d) == labels[arg.value.text]
  {
    InstructionReadsBack(op, arg, labels);
  }

  /** No double quote and no line break: text that fits between the quotes of one output line. */
  predicate Plain(t: string) {
    forall k :: 0 <= k < |t| ==> t[k] != '"' && t[k] != '\n'
  }

  /** Plain pieces joined by a space are plain. */
  lemma PlainJoin(w: string, t: string)
    requires Plain(w) && Plain(t)
    ensures Plain(w + " " + t)
  {
    var x := w + " " + t;
    forall k | 0 <= k < |x| ensures x[k] != '"' && x[k] != '\n' {
      if k < |w| { assert x[k] == w[k]; }
      else if k > |w| { assert x[k] == t[k - |w| - 1]; }
    }
  }

  /** Numerals are plain. */
  lemma DigitsPlain(t: string)
    requires AllDigits(t)
    ensures Plain(t)
  {
  }

  /** Float literals are plain. */
  lemma FloatPlain(t: string)
    requires IsFloatText(t)
    ensures Plain(t)
  {
    var p :| 0 <= p < |t| - 1 && t[p] == '.' && AllDigits(t[..p]) && AllDigits(t[p + 1..]);
    forall k | 0 <= k < |t| ensures t[k] != '"' && t[k] != '\n' {
      if k < p { assert t[..p][k] == t[k]; }
      else if k > p { assert t[p + 1..][k - p - 1] == t[k]; }
    }
  }

  /** Identifiers, with or without a leading `/`, are plain. */
  lemma TextPlain(t: string)
    requires IsIdentifier(t) || (0 < |t| && t[0] == '/' && IsIdentifier(t[1..]))
    ensures Plain(t)
  {
    if !IsIdentifier(t) {
      forall k | 1 <= k < |t| ensures t[k] != '"' && t[k] != '\n' {
        assert t[1..][k - 1] == t[k];
      }
    }
  }

  /** The instructions of well-formed opcodes are plain. */
  lemma InstructionPlain(op: Op, arg: Option<Arg>, labels: map<string, nat>)
    requires WellFormedOpcode(op, arg) && Instruction(op, arg, labels).Ok?
    ensures Plain(Instruction(op, arg, labels).value)
  {
    var w := Name(op);
    NameIsWord(op);
    assert Plain(w);
    if arg.Some? {
      if IsBranch(op) {
        var t := NatToString(labels[arg.value.text]);
        DigitsPlain(t);
        PlainJoin(w, t);
      } else {
        var t := ArgText(arg.value);
        match arg.value {
          case Int(n) => DigitsPlain(t);
          case Float(f) => FloatPlain(f);
          case Text(x) => TextPlain(x);
        }
        PlainJoin(w, t);
      }
    }
  }

  /** Well-formed programs generate plain instructions. */
  lemma {:induction false} GeneratePlain(ast: seq<Node>, labels: map<string, nat>)
    requires forall n :: n in ast ==> WellFormed(n)
    requires Generate(ast, labels).Ok?
    ensures forall x :: x in Generate(ast, labels).value ==> Plain(x)
    decreases |ast|
  {
    if ast != [] {
      var init := ast[..|ast| - 1];
      var n := ast[|ast| - 1];
      assert forall m :: m in init ==> m in ast;
      GeneratePlain(init, labels);
      assert n in ast;
      if n.Opcode? {
        InstructionPlain(n.op, n.arg, labels);
      }
    }
  }
}

=== FILE: Grammar.dfy ===
/**
 * The assembler's grammar as a deterministic recursive-descent parser.
 *
 * Every parser takes the whole source `s` and a position `i` and either
 * fails (`None`) or yields a value and the position after what it consumed.
 * Alternatives are tried in the grammar's order and the first that succeeds
 * wins, so the parser is the same function of the input as the ordered
 * choice of the combinator grammar it models.
 */
module Grammar {
  import opened Chars
  import opened Syntax

  /** `WHITESPACE = regex(r"\s*")`: the end of the run of whitespace that starts at `i`. */
  function SkipSpace(s: string, i: nat): (j: nat)
    requires i <= |s|
    ensures i <= j <= |s|
    ensures j == |s| || !IsSpace(s[j])
    decreases |s| - i
  {
    if i < |s| && IsSpace(s[i]) then SkipSpace(s, i + 1) else i
  }

  /** The end of the longest run of `[A-Za-z0-9_]` that starts at `i`. */
  function WordEnd(s: string, i: nat): (j: nat)
    requires i <= |s|
    ensures i <= j <= |s|
    ensures j == |s| || !IsWordChar(s[j])
    decreases |s| - i
  {
    if i < |s| && IsWordChar(s[i]) then WordEnd(s, i + 1) else i
  }

  /** What `SkipSpace` skips is whitespace. */
  lemma {:induction false} SkipSpaceSpaces(s: string, i: nat)
    requires i <= |s|
    ensures forall k :: i <= k < SkipSpace(s, i) ==> IsSpace(s[k])
    decreases |s| - i
  {
    if i < |s| && IsSpace(s[i]) {
      SkipSpaceSpaces(s, i + 1);
    }
  }

  /** What `WordEnd` passes over are word characters. */
  lemma {:induction false} WordEndChars(s: string, i: nat)
    requires i <= |s|
    ensures forall k :: i <= k < WordEnd(s, i) ==> IsWordChar(s[k])
    decreases |s| - i
  {
    if i < |s| && IsWordChar(s[i]) {
      WordEndChars(s, i + 1);
    }
  }

  /** The end of the longest run of `[0-9]` that starts at `i`. */
  function DigitsEnd(s: string, i: nat): (j: nat)
    requires i <= |s|
    ensures i <= j <= |s|
    ensures AllDigits(s[i..j])
    ensures j == |s| || !IsDigit(s[j])
    decreases |s| - i
  {
    if i < |s| && IsDigit(s[i]) then DigitsEnd(s, i + 1) else i
  }

  /**
   * `literal(word)`: `word`, then a word boundary (`\b`), then whitespace.
   * Yields the position after the whitespace.
   */
  function Literal(s: string, i: nat, word: string): (r: Option<nat>)
    requires i <= |s|
    ensures r.Some? ==> i + |word| <= r.value <= |s|
  {
    var e := i + |word|;
    if e <= |s| && s[i..e] == word && (e == |s| || !IsWordChar(s[e])) then Some(SkipSpace(s, e))
    else None
  }

  /**
   * The ordered choice `literal(w1) | literal(w2) | ...` over the keywords
   * of `ops`, each mapped (`.result`) to its opcode.
   */
  function Keyword(s: string, i: nat, ops: seq<Op>): (r: Option<(Op, nat)>)
    requires i <= |s|
    ensures r.Some? ==> r.value.0 in ops && Literal(s, i, Word(r.value.0)) == Some(r.value.1)
    decreases |ops|
  {
    if ops == [] then None
    else
      match Literal(s, i, Word(ops[0]))
      case Some(j) => Some((ops[0], j))
      case None => Keyword(s, i, ops[1..])
  }

  /** `IDENTIFIER = regex("[A-Za-z_]+[A-Za-z0-9_]*")`: yields the end of the identifier. */
  function Identifier(s: string, i: nat): (r: Option<nat>)
    requires i <= |s|
    ensures r.Some? ==> i < r.value <= |s|
  {
    if i < |s| && IsIdentStart(s[i]) then Some(WordEnd(s, i)) else None
  }

  /** What `Identifier` reads is an identifier. */
  lemma IdentifierRead(s: string, i: nat)
    requires i <= |s| && Identifier(s, i).Some?
    ensures IsIdentifier(s[i..Identifier(s, i).value])
  {
    var e := Identifier(s, i).value;
    WordEndChars(s, i);
    assert forall k :: 0 <= k < e - i ==> s[i..e][k] == s[i + k];
  }

  /** `FLOAT = regex("[0-9]*[.][0-9]+")`: yields the end of the literal. */
  function FloatEnd(s: string, i: nat): (r: Option<nat>)
    requires i <= |s|
    ensures r.Some? ==> DigitsEnd(s, i) + 1 < r.value <= |s| && s[DigitsEnd(s, i)] == '.'
  {
    var d := DigitsEnd(s, i);
    if d + 1 < |s| && s[d] == '.' && IsDigit(s[d + 1]) then Some(DigitsEnd(s, d + 1)) else None
  }

  /** `INTEGER = regex("[0-9]+")`: yields the end of the literal. */
  function IntegerEnd(s: string, i: nat): (r: Option<nat>)
    requires i <= |s|
    ensures r.Some? ==> i < r.value <= |s| && AllDigits(s[i..r.value])
    ensures r.Some? ==> r.value == |s| || !IsDigit(s[r.value])
  {
    var d := DigitsEnd(s, i);
    if i < d then Some(d) else None
  }

  /**
   * The operand of `push`: `NUMBER | BOOLEAN | FORWARD_SLASH + IDENTIFIER`,
   * where `NUMBER = FLOAT | INTEGER`, `true` and `false` stand for 1 and 0,
   * and `/` joined with the identifier that follows it is kept as one string.
   */
  function PushOperand(s: string, i: nat): (r: Option<(Arg, nat)>)
    requires i <= |s|
    ensures r.Some? ==> i < r.value.1 <= |s|
  {
    match FloatEnd(s, i)
    case Some(j) => Some((Float(s[i..j]), j))
    case None =>
      match IntegerEnd(s, i)
      case Some(j) => Some((Int(DecimalValue(s[i..j])), j))
      case None =>
        match Literal(s, i, "true")
        case Some(j) => Some((Int(1), j))
        case None =>
          match Literal(s, i, "false")
          case Some(j) => Some((Int(0), j))
          case None =>
            if i < |s| && s[i] == '/' then
              match Identifier(s, i + 1)
              case Some(j) => Some((Text(s[i..j]), j))
              case None => None
            else None
  }

  /** Parser alternation `a | b`: the first alternative that succeeds. */
  function OrElse<T>(a: Option<T>, b: Option<T>): Option<T> {
    if a.Some? then a else b
  }

  const StackOps: seq<Op> := [Pop, Dup, Dot]
  const ArithmeticOps: seq<Op> := [Add, Sub, Mul, Div, Pow, Min, Max]
  const BranchOps: seq<Op> := [Jmp, Jif, Call]
  const LogicalOps: seq<Op> := [Eq, Ne, Lt, Le, Gt, Ge]
  const IoOps: seq<Op> := [Store, Load, GStore, GLoad]

  /** `PUSH = seq(literal("push"), <push operand>)` */
  function PushOp(s: string, i: nat): (r: Option<(Node, nat)>)
    requires i <= |s|
    ensures r.Some? ==> i < r.value.1 <= |s|
  {
    match Literal(s, i, "push")
    case None => None
    case Some(j) =>
      match PushOperand(s, j)
      case None => None
      case Some((a, k)) => Some((Opcode(Push, Some(a)), k))
  }

  /** One of the keywords of `ops`, with no argument. */
  function Bare(s: string, i: nat, ops: seq<Op>): (r: Option<(Node, nat)>)
    requires i <= |s|
    ensures r.Some? ==> i < r.value.1 <= |s|
  {
    match Keyword(s, i, ops)
    case None => None
    case Some((op, j)) => Some((Opcode(op, None), j))
  }

  /** `seq(<one of the keywords of ops>, IDENTIFIER)` */
  function WithIdentifier(s: string, i: nat, ops: seq<Op>): (r: Option<(Node, nat)>)
    requires i <= |s|
    ensures r.Some? ==> i < r.value.1 <= |s|
  {
    match Keyword(s, i, ops)
    case None => None
    case Some((op, j)) =>
      match Identifier(s, j)
      case None => None
      case Some(k) => Some((Opcode(op, Some(Text(s[j..k]))), k))
  }

  /**
   * The shapes an opcode alternative takes: `push` with its operand, a choice
   * of keywords standing alone, or a choice of keywords followed by an identifier.
   */
  datatype Form = PushForm | BareForm(ops: seq<Op>) | IdentifierForm(ops: seq<Op>)

  /**
   * `OPCODE = STACK_OP | ARITHMETIC_OP | BRANCH_OP | LOGICAL_OP | IO_OP | HLT`, where
   * `STACK_OP = PUSH | POP | DUP | DOT`, `BRANCH_OP = seq(JMP | JIF | CALL, IDENTIFIER) | RET`
   * and `IO_OP = seq(STORE | LOAD | GSTORE | GLOAD, IDENTIFIER)`, written out as one
   * ordered choice (ordered choice is associative, so the nesting does not matter).
   */
  const OpcodeForms: seq<Form> := [
    PushForm, BareForm(StackOps), BareForm(ArithmeticOps),
    IdentifierForm(BranchOps), BareForm([Ret]),
    BareForm(LogicalOps), IdentifierForm(IoOps), BareForm([Hlt])]

  /** The parser of one alternative. */
  function Alternative(s: string, i: nat, f: Form): (r: Option<(Node, nat)>)
    requires i <= |s|
    ensures r.Some? ==> i < r.value.1 <= |s|
  {
    match f
    case PushForm => PushOp(s, i)
    case BareForm(ops) => Bare(s, i, ops)
    case IdentifierForm(ops) => WithIdentifier(s, i, ops)
  }

  /** Ordered choice over `forms`: what the first alternative that succeeds yields. */
  function FirstOf(s: string, i: nat, forms: seq<Form>): (r: Option<(Node, nat)>)
    requires i <= |s|
    ensures r.Some? ==> i < r.value.1 <= |s|
    decreases |forms|
  {
    if forms == [] then None else OrElse(Alternative(s, i, forms[0]), FirstOf(s, i, forms[1..]))
  }

  /** The opcode alternatives, tried in order. */
  function OpcodeBody(s: string, i: nat): (r: Option<(Node, nat)>)
    requires i <= |s|
    ensures r.Some? ==> i < r.value.1 <= |s|
  {
    FirstOf(s, i, OpcodeForms)
  }

  /** `LABEL = token(IDENTIFIER << COLON)` */
  function LabelStatement(s: string, i: nat): (r: Option<(Node, nat)>)
    requires i <= |s|
    ensures r.Some? ==> i < r.value.1 <= |s|
  {
    match Identifier(s, i)
    case None => None
    case Some(j) =>
      if j < |s| && s[j] == ':' then Some((Label(s[i..j]), SkipSpace(s, j + 1))) else None
  }

  /** `OPCODE = token(<opcode alternatives>)` */
  function OpcodeStatement(s: string, i: nat): (r: Option<(Node, nat)>)
    requires i <= |s|
    ensures r.Some? ==> i < r.value.1 <= |s|
  {
    match OpcodeBody(s, i)
    case None => None
    case Some((n, j)) => Some((n, SkipSpace(s, j)))
  }

  /** `statement = LABEL | OPCODE` */
  function Statement(s: string, i: nat): (r: Option<(Node, nat)>)
    requires i <= |s|
    ensures r.Some? ==> i < r.value.1 <= |s|
  {
    OrElse(LabelStatement(s, i), OpcodeStatement(s, i))
  }

  /**
   * `statement.many()` followed by the end of input: statements are read
   * while one matches; the input must then be exhausted.
   */
  function Statements(s: string, i: nat): (r: Result<seq<Node>>)
    requires i <= |s|
    decreases |s| - i
  {
    match Statement(s, i)
    case Some((n, j)) =>
      (match Statements(s, j)
       case Ok(ns) => Ok([n] + ns)
       case Err(e) => Err(e))
    case None => if i == |s| then Ok([]) else Err(SyntaxError)
  }

  /** `program = WHITESPACE >> statement.many()`, parsed to the end of the input. */
  function Parse(source: string): Result<seq<Node>> {
    Statements(source, SkipSpace(source, 0))
  }
}

=== FILE: GrammarFacts.dfy ===
/**
 * What the grammar guarantees: keywords only match whole words, every node
 * the parser produces is well formed, and printing well-formed nodes back as
 * source text and parsing that text gives the same nodes.
 */
module GrammarFacts {
  import opened Chars
  import opened Syntax
  import opened Grammar

  // Each run function is determined by where its run stops.

  lemma {:induction false} WordEndAt(s: string, i: nat, e: nat)
    requires i <= e <= |s|
    requires forall k :: i <= k < e ==> IsWordChar(s[k])
    requires e == |s| || !IsWordChar(s[e])
    ensures WordEnd(s, i) == e
    decreases e - i
  {
    if i < e {
      WordEndAt(s, i + 1, e);
    }
  }

  lemma {:induction false} SkipSpaceAt(s: string, i: nat, e: nat)
    requires i <= e <= |s|
    requires forall k :: i <= k < e ==> IsSpace(s[k])
    requires e == |s| || !IsSpace(s[e])
    ensures SkipSpace(s, i) == e
    decreases e - i
  {
    if i < e {
      SkipSpaceAt(s, i + 1, e);
    }
  }

  lemma {:induction false} DigitsEndAt(s: string, i: nat, e: nat)
    requires i <= e <= |s|
    requires AllDigits(s[i..e])
    requires e == |s| || !IsDigit(s[e])
    ensures DigitsEnd(s, i) == e
    decreases e - i
  {
    if i < e {
      assert s[i] == s[i..e][0];
      assert s[i + 1..e] == s[i..e][1..];
      DigitsEndAt(s, i + 1, e);
    }
  }

  /**
   * Keyword boundary: a keyword matches at `i` exactly when it is the whole
   * run of identifier characters starting there, so `pop` never matches the
   * start of `popular` and `push` never matches the start of `push1`.
   */
  lemma LiteralIsWholeWord(s: string, i: nat, w: string)
    requires i <= |s|
    requires 0 < |w| && forall k :: 0 <= k < |w| ==> IsWordChar(w[k])
    ensures Literal(s, i, w).Some? <==> s[i..WordEnd(s, i)] == w
    ensures Literal(s, i, w).Some? ==> Literal(s, i, w).value == SkipSpace(s, i + |w|)
  {
    var e := i + |w|;
    if Literal(s, i, w).Some? {
      forall k | i <= k < e ensures IsWordChar(s[k]) {
        assert s[i..e][k - i] == s[k];
      }
      WordEndAt(s, i, e);
    }
    if s[i..WordEnd(s, i)] == w {
      assert WordEnd(s, i) == e;
    }
  }

  /** A keyword that is the whole word at `i` is picked by a choice over `ops` exactly when it is among them. */
  lemma {:induction false} KeywordFinds(s: string, i: nat, ops: seq<Op>, op: Op)
    requires i <= |s|
    requires s[i..WordEnd(s, i)] == Word(op)
    ensures Keyword(s, i, ops) == if op in ops then Some((op, SkipSpace(s, i + |Word(op)|))) else None
    decreases |ops|
  {
    if ops != [] {
      LiteralIsWholeWord(s, i, Word(ops[0]));
      LiteralIsWholeWord(s, i, Word(op));
      if ops[0] == op {
      } else {
        if s[i..WordEnd(s, i)] == Word(ops[0]) {
          WordInjective(ops[0], op);
        }
        KeywordFinds(s, i, ops[1..], op);
        assert op in ops <==> op in ops[1..];
      }
    }
  }

  // Soundness: the parser produces only well-formed nodes.

  lemma PushOperandWellFormed(s: string, i: nat)
    requires i <= |s| && PushOperand(s, i).Some?
    ensures IsPushValue(PushOperand(s, i).value.0)
  {
    match FloatEnd(s, i)
    case Some(j) =>
      var d := DigitsEnd(s, i);
      var t := s[i..j];
      assert t[..d - i] == s[i..d];
      assert t[d - i + 1..] == s[d + 1..j];
      assert t[d - i] == '.';
    case None =>
      if IntegerEnd(s, i).None? && Literal(s, i, "true").None? && Literal(s, i, "false").None? {
        var j := Identifier(s, i + 1).value;
        IdentifierRead(s, i + 1);
        assert s[i..j][1..] == s[i + 1..j];
      }
  }

  lemma BareFacts(s: string, i: nat, ops: seq<Op>)
    requires i <= |s| && Bare(s, i, ops).Some?
    requires forall o :: o in ops ==> WellFormedOpcode(o, None)
    ensures var n := Bare(s, i, ops).value.0;
      n.Opcode? && n.op in ops && s[i..WordEnd(s, i)] == Word(n.op) && WellFormed(n)
  {
    LiteralIsWholeWord(s, i, Word(Keyword(s, i, ops).value.0));
  }

  lemma WithIdentifierFacts(s: string, i: nat, ops: seq<Op>)
    requires i <= |s| && WithIdentifier(s, i, ops).Some?
    requires forall o :: o in ops ==> WellFormedOpcode(o, Some(Text("x")))
    ensures var n := WithIdentifier(s, i, ops).value.0;
      n.Opcode? && n.op in ops && s[i..WordEnd(s, i)] == Word(n.op) && WellFormed(n)
  {
    var op := Keyword(s, i, ops).value.0;
    LiteralIsWholeWord(s, i, Word(op));
    IdentifierRead(s, Keyword(s, i, ops).value.1);
    assert WellFormedOpcode(op, Some(Text("x")));
  }

  lemma PushOpFacts(s: string, i: nat)
    requires i <= |s| && PushOp(s, i).Some?
    ensures var n := PushOp(s, i).value.0;
      n.Opcode? && n.op == Push && s[i..WordEnd(s, i)] == Word(Push) && WellFormed(n)
  {
    LiteralIsWholeWord(s, i, "push");
    PushOperandWellFormed(s, Literal(s, i, "push").value);
  }

  lemma GroupShapes()
    ensures forall o :: o in StackOps ==> WellFormedOpcode(o, None)
    ensures forall o :: o in ArithmeticOps ==> WellFormedOpcode(o, None)
    ensures forall o :: o in LogicalOps ==> WellFormedOpcode(o, None)
    ensures forall o :: o in [Ret] ==> WellFormedOpcode(o, None)
    ensures forall o :: o in [Hlt] ==> WellFormedOpcode(o, None)
    ensures forall o :: o in BranchOps ==> WellFormedOpcode(o, Some(Text("x")))
    ensures forall o :: o in IoOps ==> WellFormedOpcode(o, Some(Text("x")))
  {
  }

  /** An ordered choice that succeeds yields what one of its alternatives yields. */
  lemma {:induction false} FirstOfPicks(s: string, i: nat, forms: seq<Form>) returns (j: nat)
    requires i <= |s| && FirstOf(s, i, forms).Some?
    ensures j < |forms| && FirstOf(s, i, forms) == Alternative(s, i, forms[j])
    decreases |forms|
  {
    if Alternative(s, i, forms[0]).Some? {
      j := 0;
    } else {
      var k := FirstOfPicks(s, i, forms[1..]);
      j := k + 1;
    }
  }

  /** Each opcode alternative yields a well-formed opcode node whose keyword is the whole word at `i`. */
  lemma AlternativeFacts(s: string, i: nat, j: nat)
    requires i <= |s| && j < |OpcodeForms| && Alternative(s, i, OpcodeForms[j]).Some?
    ensures var n := Alternative(s, i, OpcodeForms[j]).value.0;
      n.Opcode? && s[i..WordEnd(s, i)] == Word(n.op) && WellFormed(n)
  {
    GroupShapes();
    FormsListed();
    if j < 4 {
      FirstAlternativesFacts(s, i, j);
    } else if j == 4 {
      BareFacts(s, i, [Ret]);
    } else if j == 5 {
      BareFacts(s, i, LogicalOps);
    } else if j == 6 {
      WithIdentifierFacts(s, i, IoOps);
    } else {
      BareFacts(s, i, [Hlt]);
    }
  }

  lemma FirstAlternativesFacts(s: string, i: nat, j: nat)
    requires i <= |s| && j < 4 && Alternative(s, i, OpcodeForms[j]).Some?
    ensures var n := Alternative(s, i, OpcodeForms[j]).value.0;
      n.Opcode? && s[i..WordEnd(s, i)] == Word(n.op) && WellFormed(n)
  {
    GroupShapes();
    FormsListed();
    if j == 0 {
      PushOpFacts(s, i);
    } else if j == 1 {
      BareFacts(s, i, StackOps);
    } else if j == 2 {
      BareFacts(s, i, ArithmeticOps);
    } else {
      WithIdentifierFacts(s, i, BranchOps);
    }
  }

  /** The opcode alternatives yield a well-formed opcode node whose keyword is the whole word at `i`. */
  lemma OpcodeBodyFacts(s: string, i: nat)
    requires i <= |s| && OpcodeBody(s, i).Some?
    ensures var n := OpcodeBody(s, i).value.0;
      n.Opcode? && s[i..WordEnd(s, i)] == Word(n.op) && WellFormed(n)
  {
    var j := FirstOfPicks(s, i, OpcodeForms);
    AlternativeFacts(s, i, j);
  }

  lemma StatementWellFormed(s: string, i: nat)
    requires i <= |s| && Statement(s, i).Some?
    ensures WellFormed(Statement(s, i).value.0)
  {
    if LabelStatement(s, i).None? {
      OpcodeBodyFacts(s, i);
    } else {
      IdentifierRead(s, i);
    }
  }

  /** Every node of a successful parse is well formed. */
  lemma {:induction false} StatementsWellFormed(s: string, i: nat)
    requires i <= |s| && Statements(s, i).Ok?
    ensures forall n :: n in Statements(s, i).value ==> WellFormed(n)
    decreases |s| - i
  {
    var st := Statement(s, i);
    if st.Some? {
      var (n, j) := st.value;
      StatementWellFormed(s, i);
      StatementsWellFormed(s, j);
      var rest := Statements(s, j).value;
      assert Statements(s, i).value == [n] + rest;
    }
  }

  /**
   * A statement starts with a whole word: an opcode node's keyword, or a
   * label's name, is the entire run of identifier characters at its start.
   */
  lemma StatementStartsWithWholeWord(s: string, i: nat)
    requires i <= |s| && Statement(s, i).Some?
    ensures var n := Statement(s, i).value.0;
      match n
      case Label(name) => name == s[i..WordEnd(s, i)] && WordEnd(s, i) < |s| && s[WordEnd(s, i)] == ':'
      case Opcode(op, _) => s[i..WordEnd(s, i)] == Word(op)
  {
    if LabelStatement(s, i).None? {
      OpcodeBodyFacts(s, i);
    }
  }

  // Round trip: well-formed nodes written as source text parse back to themselves.

  /** A node written back as assembly source (comparisons and variable operations by their keyword). */
  function SourceText(n: Node): string {
    match n
    case Label(name) => name + ":"
    case Opcode(op, None) => Word(op)
    case Opcode(op, Some(a)) => Word(op) + " " + ArgText(a)
  }

  /** A program written back as assembly source, one statement per line. */
  function Unparse(ns: seq<Node>): string {
    if ns == [] then "" else SourceText(ns[0]) + "\n" + Unparse(ns[1..])
  }

  /** `t` occurs in `s` at `i`, compared one character at a time. */
  predicate Occurs(s: string, i: nat, t: string)
    decreases |t|
  {
    if t == [] then i <= |s| else i < |s| && s[i] == t[0] && Occurs(s, i + 1, t[1..])
  }

  lemma {:induction false} OccursSlice(s: string, i: nat, t: string)
    ensures Occurs(s, i, t) <==> i + |t| <= |s| && s[i..i + |t|] == t
    decreases |t|
  {
    if t != [] {
      OccursSlice(s, i + 1, t[1..]);
      if i + |t| <= |s| {
        assert s[i..i + |t|] == [s[i]] + s[i + 1..i + |t|];
        assert t == [t[0]] + t[1..];
      }
    }
  }

  /** `t` stands at `i`, followed by a line break that is not followed by more whitespace. */
  predicate LineAt(s: string, i: nat, t: string) {
    Occurs(s, i, t + "\n") && (i + |t| + 1 < |s| ==> !IsSpace(s[i + |t| + 1]))
  }

  /** A line, by position. */
  lemma LineText(s: string, i: nat, t: string)
    requires LineAt(s, i, t)
    ensures i + |t| < |s| && s[i..i + |t|] == t && s[i + |t|] == '\n'
      && (i + |t| + 1 == |s| || !IsSpace(s[i + |t| + 1]))
  {
    OccursSlice(s, i, t + "\n");
    assert s[i..i + |t|] == s[i..i + |t| + 1][..|t|];
    assert s[i + |t|] == s[i..i + |t| + 1][|t|];
  }

  lemma SourceTextStartsWithWordChar(n: Node)
    requires WellFormed(n)
    ensures 0 < |SourceText(n)| && IsWordChar(SourceText(n)[0])
  {
    if n.Opcode? {
      assert SourceText(n)[0] == Word(n.op)[0];
    }
  }

  /** A word of identifier characters followed by a non-identifier character is the whole word at `i`. */
  lemma WholeWordAt(s: string, i: nat, w: string)
    requires i + |w| < |s| && s[i..i + |w|] == w && !IsWordChar(s[i + |w|])
    requires forall k :: 0 <= k < |w| ==> IsWordChar(w[k])
    ensures WordEnd(s, i) == i + |w| && s[i..WordEnd(s, i)] == w
  {
    forall k | i <= k < i + |w| ensures IsWordChar(s[k]) {
      assert s[k] == s[i..i + |w|][k - i];
    }
    WordEndAt(s, i, i + |w|);
  }

  lemma IdentifierAt(s: string, i: nat, x: string)
    requires IsIdentifier(x) && i + |x| < |s| && s[i..i + |x|] == x && !IsWordChar(s[i + |x|])
    ensures Identifier(s, i) == Some(i + |x|)
  {
    WholeWordAt(s, i, x);
    assert s[i] == x[0];
  }

  lemma IntOperandRoundTrip(s: string, p: nat, n: nat)
    requires var t := NatToString(n); p + |t| < |s| && s[p..p + |t|] == t && s[p + |t|] == '\n'
    ensures PushOperand(s, p) == Some((Int(n), p + |NatToString(n)|))
  {
    var e := p + |NatToString(n)|;
    DigitsEndAt(s, p, e);
    assert FloatEnd(s, p).None?;
    assert IntegerEnd(s, p) == Some(e);
  }

  /** The text of a float literal followed by a newline is read as a float literal, up to the newline. */
  lemma FloatEndAt(s: string, p: nat, t: string)
    requires IsFloatText(t)
    requires p + |t| < |s| && s[p..p + |t|] == t && s[p + |t|] == '\n'
    ensures FloatEnd(s, p) == Some(p + |t|)
  {
    var q :| 0 <= q < |t| - 1 && t[q] == '.' && AllDigits(t[..q]) && AllDigits(t[q + 1..]);
    FloatPartsAt(s, p, t, q);
  }

  /** The same, with the position `q` of the point in the literal given. */
  lemma FloatPartsAt(s: string, p: nat, t: string, q: nat)
    requires q < |t| - 1 && t[q] == '.' && AllDigits(t[..q]) && AllDigits(t[q + 1..])
    requires p + |t| < |s| && s[p..p + |t|] == t && s[p + |t|] == '\n'
    ensures FloatEnd(s, p) == Some(p + |t|)
  {
    var e := p + |t|;
    assert s[p..p + q] == s[p..e][..q];
    assert s[p + q + 1..e] == s[p..e][q + 1..];
    assert s[p + q] == s[p..e][q];
    assert s[p + q + 1] == t[q + 1..][0];
    DigitsEndAt(s, p, p + q);
    DigitsEndAt(s, p + q + 1, e);
  }

  lemma FloatOperandRoundTrip(s: string, p: nat, t: string)
    requires IsFloatText(t)
    requires p + |t| < |s| && s[p..p + |t|] == t && s[p + |t|] == '\n'
    ensures PushOperand(s, p) == Some((Float(t), p + |t|))
  {
    FloatEndAt(s, p, t);
  }

  lemma TextOperandRoundTrip(s: string, p: nat, t: string)
    requires 0 < |t| && t[0] == '/' && IsIdentifier(t[1..])
    requires p + |t| < |s| && s[p..p + |t|] == t && s[p + |t|] == '\n'
    ensures PushOperand(s, p) == Some((Text(t), p + |t|))
  {
    var e := p + |t|;
    assert s[p] == t[0];
    DigitsEndAt(s, p, p);
    assert FloatEnd(s, p).None? && IntegerEnd(s, p).None?;
    assert Literal(s, p, "true").None? && Literal(s, p, "false").None?;
    assert s[p + 1..e] == t[1..];
    IdentifierAt(s, p + 1, t[1..]);
  }

  lemma PushOperandRoundTrip(s: string, p: nat, a: Arg, e: nat)
    requires IsPushValue(a)
    requires e == p + |ArgText(a)| && e < |s| && s[p..e] == ArgText(a) && s[e] == '\n'
    ensures PushOperand(s, p) == Some((a, e))
  {
    match a
    case Int(n) => IntOperandRoundTrip(s, p, n);
    case Float(t) => FloatOperandRoundTrip(s, p, t);
    case Text(t) => TextOperandRoundTrip(s, p, t);
  }

  /** `true` and `false`, standing as whole words, are read as the integers 1 and 0. */
  lemma BooleanOperand(s: string, p: nat)
    requires p <= |s|
    ensures s[p..WordEnd(s, p)] == "true" ==> PushOperand(s, p) == Some((Int(1), SkipSpace(s, p + 4)))
    ensures s[p..WordEnd(s, p)] == "false" ==> PushOperand(s, p) == Some((Int(0), SkipSpace(s, p + 5)))
  {
    var w := s[p..WordEnd(s, p)];
    if w == "true" || w == "false" {
      assert s[p] == w[0];
      DigitsEndAt(s, p, p);
      LiteralIsWholeWord(s, p, "true");
      LiteralIsWholeWord(s, p, "false");
    }
  }

  /** `push` fails where another keyword is the whole word. */
  lemma PushAbsent(s: string, i: nat, op: Op)
    requires i <= |s| && s[i..WordEnd(s, i)] == Word(op) && op != Push
    ensures Literal(s, i, "push").None? && PushOp(s, i).None?
  {
    LiteralIsWholeWord(s, i, "push");
    if Word(op) == "push" { WordInjective(op, Push); }
  }

  /** The first character of a push operand's text is not whitespace. */
  lemma PushValueStart(a: Arg)
    requires IsPushValue(a)
    ensures 0 < |ArgText(a)| && !IsSpace(ArgText(a)[0])
  {
    var t := ArgText(a);
    if a.Float? {
      var q :| 0 <= q < |t| - 1 && t[q] == '.' && AllDigits(t[..q]) && AllDigits(t[q + 1..]);
      if q > 0 { assert t[..q][0] == t[0]; }
    }
  }

  /** A word at the start of a text standing at `i`, followed by a character that ends words. */
  lemma LeadingWord(s: string, i: nat, t: string, w: string)
    requires i + |t| <= |s| && s[i..i + |t|] == t
    requires |w| < |t| && t[..|w|] == w && !IsWordChar(t[|w|])
    requires forall k :: 0 <= k < |w| ==> IsWordChar(w[k])
    ensures WordEnd(s, i) == i + |w| && s[i..WordEnd(s, i)] == w && s[i + |w|] == t[|w|]
  {
    assert s[i..i + |w|] == s[i..i + |t|][..|w|];
    assert s[i + |w|] == s[i..i + |t|][|w|];
    WholeWordAt(s, i, w);
  }

  /** The keyword of an opcode line at `i` is the whole word there, followed by a blank or the newline. */
  lemma KeywordOfLine(s: string, i: nat, n: Node)
    requires n.Opcode? && LineAt(s, i, SourceText(n))
    ensures i + |Word(n.op)| < |s| && WordEnd(s, i) == i + |Word(n.op)| && s[i..WordEnd(s, i)] == Word(n.op)
    ensures s[i + |Word(n.op)|] == if n.arg.None? then '\n' else ' '
  {
    var t := SourceText(n) + "\n";
    var w := Word(n.op);
    OccursSlice(s, i, t);
    assert t[..|w|] == w && t[|w|] == if n.arg.None? then '\n' else ' ';
    LeadingWord(s, i, t, w);
  }

  /** A word, a blank and an operand standing at `i`, by position. */
  lemma SpacedAt(s: string, i: nat, w: string, u: string)
    requires i + |w| + 1 + |u| <= |s| && s[i..i + |w| + 1 + |u|] == w + " " + u
    ensures s[i + |w|] == ' ' && s[i + |w| + 1..i + |w| + 1 + |u|] == u
  {
    var t := w + " " + u;
    assert t[|w|] == ' ' && t[|w| + 1..] == u;
    assert s[i + |w|] == s[i..i + |t|][|w|];
    assert s[i + |w| + 1..i + |t|] == s[i..i + |t|][|w| + 1..];
  }

  /** The operand of a line `w u` at `i`: after the word and one blank, up to the newline. */
  lemma ArgumentAt(s: string, i: nat, w: string, u: string)
    requires LineAt(s, i, w + " " + u)
    ensures var p := i + |w| + 1; var e := p + |u|;
      e < |s| && s[p..e] == u && s[e] == '\n' && (e + 1 == |s| || !IsSpace(s[e + 1]))
  {
    LineText(s, i, w + " " + u);
    SpacedAt(s, i, w, u);
  }

  /** A line made of a word, a blank and an operand, piece by piece. */
  lemma SpacedLine(s: string, i: nat, w: string, u: string)
    requires LineAt(s, i, w + " " + u)
    ensures var p := i + |w| + 1; var e := p + |u|;
      e < |s| && s[i..i + |w|] == w && s[i + |w|] == ' ' && s[p..e] == u && s[e] == '\n'
  {
    var t := w + " " + u;
    LineText(s, i, t);
    SpacedAt(s, i, w, u);
    assert t[..|w|] == w;
    assert s[i..i + |w|] == s[i..i + |t|][..|w|];
  }

  /** The operand of an opcode line at `i`: after the keyword and one blank, up to the newline. */
  lemma ArgumentOfLine(s: string, i: nat, n: Node)
    requires n.Opcode? && n.arg.Some? && LineAt(s, i, SourceText(n))
    ensures var p := i + |Word(n.op)| + 1; var e := i + |SourceText(n)|;
      e == p + |ArgText(n.arg.value)| && e < |s| && s[p..e] == ArgText(n.arg.value)
      && s[e] == '\n' && (e + 1 == |s| || !IsSpace(s[e + 1]))
  {
    assert SourceText(n) == Word(n.op) + " " + ArgText(n.arg.value);
    ArgumentAt(s, i, Word(n.op), ArgText(n.arg.value));
  }

  /** An opcode line with an operand ends at its newline, which is skipped as the whitespace after it. */
  lemma OperandLineEnd(s: string, i: nat, n: Node)
    requires n.Opcode? && n.arg.Some? && LineAt(s, i, SourceText(n))
    ensures var e := i + |SourceText(n)|; e < |s| && SkipSpace(s, e) == e + 1
  {
    var e := i + |SourceText(n)|;
    LineText(s, i, SourceText(n));
    SkipSpaceAt(s, e, e + 1);
  }

  /** An opcode line does not start with a label: its first word is followed by a blank or a newline. */
  lemma NotALabel(s: string, i: nat, n: Node)
    requires n.Opcode? && LineAt(s, i, SourceText(n))
    ensures LabelStatement(s, i).None?
  {
    KeywordOfLine(s, i, n);
  }

  // Which alternative reads an opcode line.

  /** The keywords an opcode alternative starts with. */
  function Keywords(f: Form): seq<Op> {
    match f
    case PushForm => [Push]
    case BareForm(ops) => ops
    case IdentifierForm(ops) => ops
  }

  /** A keyword choice fails when the whole word at `i` is the keyword of an opcode outside it. */
  lemma KeywordAbsent(s: string, i: nat, ops: seq<Op>, op: Op)
    requires i <= |s| && s[i..WordEnd(s, i)] == Word(op) && op !in ops
    ensures Keyword(s, i, ops).None?
  {
    KeywordFinds(s, i, ops, op);
  }

  /** An alternative fails at a whole word that is none of its keywords. */
  lemma AlternativeAbsent(s: string, i: nat, f: Form, op: Op)
    requires i <= |s| && s[i..WordEnd(s, i)] == Word(op) && op !in Keywords(f)
    ensures Alternative(s, i, f).None?
  {
    match f
    case PushForm => PushAbsent(s, i, op);
    case BareForm(ops) => KeywordAbsent(s, i, ops, op);
    case IdentifierForm(ops) => KeywordAbsent(s, i, ops, op);
  }

  /** An ordered choice whose alternatives all fail fails. */
  lemma {:induction false} FirstOfNone(s: string, i: nat, forms: seq<Form>)
    requires i <= |s| && forall j :: 0 <= j < |forms| ==> Alternative(s, i, forms[j]).None?
    ensures FirstOf(s, i, forms).None?
    decreases |forms|
  {
    if forms != [] {
      assert Alternative(s, i, forms[0]).None?;
      forall j | 0 <= j < |forms| - 1 ensures Alternative(s, i, forms[1..][j]).None? {
        assert forms[1..][j] == forms[j + 1];
      }
      FirstOfNone(s, i, forms[1..]);
    }
  }

  /** When every alternative but the `k`-th fails, the ordered choice is what that one yields. */
  lemma {:induction false} FirstOfOnly(s: string, i: nat, forms: seq<Form>, k: nat)
    requires i <= |s| && k < |forms|
    requires forall j :: 0 <= j < |forms| && j != k ==> Alternative(s, i, forms[j]).None?
    ensures FirstOf(s, i, forms) == Alternative(s, i, forms[k])
    decreases k
  {
    if k == 0 {
      forall j | 0 <= j < |forms| - 1 ensures Alternative(s, i, forms[1..][j]).None? {
        assert forms[1..][j] == forms[j + 1];
      }
      FirstOfNone(s, i, forms[1..]);
    } else {
      assert Alternative(s, i, forms[0]).None?;
      forall j | 0 <= j < |forms| - 1 && j != k - 1 ensures Alternative(s, i, forms[1..][j]).None? {
        assert forms[1..][j] == forms[j + 1];
      }
      FirstOfOnly(s, i, forms[1..], k - 1);
      assert forms[1..][k - 1] == forms[k];
    }
  }

  /** The position among the opcode alternatives of the one that starts with `op`. */
  function FormIndex(op: Op): nat {
    match op
    case Push => 0
    case Pop | Dup | Dot => 1
    case Add | Sub | Mul | Div | Pow | Min | Max => 2
    case Jmp | Jif | Call => 3
    case Ret => 4
    case Eq | Ne | Lt | Le | Gt | Ge => 5
    case Store | Load | GStore | GLoad => 6
    case Hlt => 7
  }

  /** The alternative that starts with the keyword of `op`. */
  function FormOf(op: Op): Form {
    match op
    case Push => PushForm
    case Pop | Dup | Dot => BareForm(StackOps)
    case Add | Sub | Mul | Div | Pow | Min | Max => BareForm(ArithmeticOps)
    case Jmp | Jif | Call => IdentifierForm(BranchOps)
    case Ret => BareForm([Ret])
    case Eq | Ne | Lt | Le | Gt | Ge => BareForm(LogicalOps)
    case Store | Load | GStore | GLoad => IdentifierForm(IoOps)
    case Hlt => BareForm([Hlt])
  }

  /** `push` and the stack keywords are the first two alternatives. */
  lemma PushAndStackIndexed(op: Op)
    ensures op == Push <==> FormIndex(op) == 0
    ensures op in StackOps <==> FormIndex(op) == 1
  {
  }

  /** The arithmetic and branch keywords are the next two. */
  lemma ArithmeticAndBranchIndexed(op: Op)
    ensures op in ArithmeticOps <==> FormIndex(op) == 2
    ensures op in BranchOps <==> FormIndex(op) == 3
  {
  }

  /** `ret` and the comparisons come next. */
  lemma RetAndLogicalIndexed(op: Op)
    ensures op == Ret <==> FormIndex(op) == 4
    ensures op in LogicalOps <==> FormIndex(op) == 5
  {
  }

  /** The variable operations and `hlt` are the last two alternatives. */
  lemma IoAndHltIndexed(op: Op)
    ensures op in IoOps <==> FormIndex(op) == 6
    ensures op == Hlt <==> FormIndex(op) == 7
  {
  }

  /** The opcode alternatives one by one. */
  lemma FormsListed()
    ensures |OpcodeForms| == 8
    ensures OpcodeForms[0] == PushForm && OpcodeForms[1] == BareForm(StackOps)
    ensures OpcodeForms[2] == BareForm(ArithmeticOps) && OpcodeForms[3] == IdentifierForm(BranchOps)
    ensures OpcodeForms[4] == BareForm([Ret]) && OpcodeForms[5] == BareForm(LogicalOps)
    ensures OpcodeForms[6] == IdentifierForm(IoOps) && OpcodeForms[7] == BareForm([Hlt])
  {
  }

  /** Every opcode starts exactly one alternative: the one at `FormIndex(op)`. */
  lemma KeywordsDisjoint(op: Op, j: nat)
    requires j < |OpcodeForms|
    ensures op in Keywords(OpcodeForms[j]) <==> j == FormIndex(op)
  {
    FormsListed();
    if j < 2 {
      PushAndStackIndexed(op);
    } else if j < 4 {
      ArithmeticAndBranchIndexed(op);
    } else if j < 6 {
      RetAndLogicalIndexed(op);
    } else {
      IoAndHltIndexed(op);
    }
  }

  /** The alternative at `FormIndex(op)` is `FormOf(op)`. */
  lemma FormOfListed(op: Op)
    ensures FormIndex(op) < |OpcodeForms| && OpcodeForms[FormIndex(op)] == FormOf(op)
  {
    FormsListed();
  }

  /** On a line whose first word is the keyword of `op`, the opcode alternatives give what the alternative of `op` gives. */
  lemma OpcodeBodySelects(s: string, i: nat, op: Op)
    requires i <= |s| && s[i..WordEnd(s, i)] == Word(op)
    ensures OpcodeBody(s, i) == Alternative(s, i, FormOf(op))
  {
    var k := FormIndex(op);
    FormOfListed(op);
    forall j | 0 <= j < |OpcodeForms| && j != k ensures Alternative(s, i, OpcodeForms[j]).None? {
      KeywordsDisjoint(op, j);
      AlternativeAbsent(s, i, OpcodeForms[j], op);
    }
    FirstOfOnly(s, i, OpcodeForms, k);
  }

  /** What the alternative of the first word gives is what the opcode alternatives give. */
  lemma OpcodeBodyOf(s: string, i: nat, n: Node, j: nat)
    requires n.Opcode? && i <= |s| && s[i..WordEnd(s, i)] == Word(n.op)
    requires Alternative(s, i, FormOf(n.op)) == Some((n, j))
    ensures OpcodeBody(s, i) == Some((n, j))
  {
    OpcodeBodySelects(s, i, n.op);
  }

  /** Where no label can be read, a statement is the opcode read there with the whitespace after it. */
  lemma OpcodeStatementOf(s: string, i: nat, n: Node, j: nat, e: nat)
    requires i <= |s| && LabelStatement(s, i).None? && OpcodeBody(s, i) == Some((n, j)) && SkipSpace(s, j) == e
    ensures Statement(s, i) == Some((n, e))
  {
  }

  // Lines of opcodes without operand.

  /** An opcode without operand is one of the keywords of a keyword choice. */
  lemma BareFormOf(op: Op)
    requires WellFormedOpcode(op, None)
    ensures FormOf(op).BareForm? && op in FormOf(op).ops
  {
  }

  /** The keyword of such a line is read together with the newline after it, and nothing more. */
  lemma BareLineEnd(s: string, i: nat, n: Node)
    requires n.Opcode? && n.arg.None? && LineAt(s, i, SourceText(n))
    ensures var e := i + |SourceText(n)| + 1;
      e <= |s| && SkipSpace(s, i + |Word(n.op)|) == e && SkipSpace(s, e) == e
  {
    var e := i + |SourceText(n)|;
    LineText(s, i, SourceText(n));
    assert SourceText(n) == Word(n.op);
    SkipSpaceAt(s, e, e + 1);
    SkipSpaceAt(s, e + 1, e + 1);
  }

  /** A keyword choice that reads a keyword reads the opcode without operand. */
  lemma BareOf(s: string, i: nat, ops: seq<Op>, n: Node, e: nat)
    requires i <= |s| && n.Opcode? && n.arg.None? && Keyword(s, i, ops) == Some((n.op, e))
    ensures Bare(s, i, ops) == Some((n, e))
  {
  }

  /** Such a line starts with its keyword as a whole word, and the blanks after it run to the next line. */
  lemma BareLineParts(s: string, i: nat, n: Node)
    requires n.Opcode? && n.arg.None? && LineAt(s, i, SourceText(n))
    ensures i + |Word(n.op)| <= |s| && s[i..WordEnd(s, i)] == Word(n.op)
    ensures SkipSpace(s, i + |Word(n.op)|) == i + |SourceText(n)| + 1
  {
    KeywordOfLine(s, i, n);
    BareLineEnd(s, i, n);
  }

  /** A whole-word keyword among `ops` is read by their choice, together with the blanks after it. */
  lemma BareWordRead(s: string, i: nat, ops: seq<Op>, n: Node, e: nat)
    requires i <= |s| && n.Opcode? && n.arg.None? && n.op in ops
    requires i + |Word(n.op)| <= |s| && s[i..WordEnd(s, i)] == Word(n.op) && SkipSpace(s, i + |Word(n.op)|) == e
    ensures Bare(s, i, ops) == Some((n, e))
  {
    KeywordFinds(s, i, ops, n.op);
    BareOf(s, i, ops, n, e);
  }

  /** The keyword of an opcode without operand, standing as a whole word, is read by the keyword choice of its group. */
  lemma BareAlternativeAt(s: string, i: nat, n: Node, e: nat)
    requires n.Opcode? && n.arg.None? && FormOf(n.op).BareForm? && n.op in FormOf(n.op).ops
    requires i + |Word(n.op)| <= |s| && s[i..WordEnd(s, i)] == Word(n.op) && SkipSpace(s, i + |Word(n.op)|) == e
    ensures Alternative(s, i, FormOf(n.op)) == Some((n, e))
  {
    BareWordRead(s, i, FormOf(n.op).ops, n, e);
  }

  /** ... and so by the opcode alternatives. */
  lemma BareBodyAt(s: string, i: nat, n: Node, e: nat)
    requires n.Opcode? && n.arg.None? && FormOf(n.op).BareForm? && n.op in FormOf(n.op).ops
    requires i + |Word(n.op)| <= |s| && s[i..WordEnd(s, i)] == Word(n.op) && SkipSpace(s, i + |Word(n.op)|) == e
    ensures OpcodeBody(s, i) == Some((n, e))
  {
    BareAlternativeAt(s, i, n, e);
    OpcodeBodyOf(s, i, n, e);
  }

  /**
   * What the parser meets on the line of an opcode without operand: no
   * label, the keyword, then spaces and the newline up to `e`.
   */
  predicate BareLineRead(s: string, i: nat, n: Node, e: nat)
    requires n.Opcode?
  {
    i <= |s| && LabelStatement(s, i).None? && i + |Word(n.op)| <= |s| && s[i..WordEnd(s, i)] == Word(n.op) &&
    SkipSpace(s, i + |Word(n.op)|) == e && e <= |s| && SkipSpace(s, e) == e
  }

  /** The line of an opcode without operand is read that way. */
  lemma BareLine(s: string, i: nat, n: Node)
    requires n.Opcode? && n.arg.None? && LineAt(s, i, SourceText(n))
    ensures BareLineRead(s, i, n, i + |SourceText(n)| + 1)
  {
    NotALabel(s, i, n);
    BareLineParts(s, i, n);
    BareLineEnd(s, i, n);
  }

  /** Where it is read that way, the statement read is the opcode alone, up to the next line. */
  lemma BareStatementAt(s: string, i: nat, n: Node, e: nat)
    requires n.Opcode? && n.arg.None? && FormOf(n.op).BareForm? && n.op in FormOf(n.op).ops && BareLineRead(s, i, n, e)
    ensures Statement(s, i) == Some((n, e))
  {
    BareBodyAt(s, i, n, e);
    OpcodeStatementOf(s, i, n, e, e);
  }

  /** A line of an opcode without operand parses back to itself, newline included. */
  lemma BareNodeRoundTrip(s: string, i: nat, n: Node)
    requires n.Opcode? && n.arg.None? && WellFormedOpcode(n.op, None) && LineAt(s, i, SourceText(n))
    ensures Statement(s, i) == Some((n, i + |SourceText(n)| + 1))
  {
    BareFormOf(n.op);
    BareLine(s, i, n);
    BareStatementAt(s, i, n, i + |SourceText(n)| + 1);
  }

  // Push lines.

  /** The `push` keyword of a push line is read together with the blank after it. */
  lemma PushLineKeyword(s: string, i: nat, n: Node)
    requires n.Opcode? && n.op == Push && n.arg.Some? && IsPushValue(n.arg.value) && LineAt(s, i, SourceText(n))
    ensures Literal(s, i, "push") == Some(i + 5)
  {
    KeywordOfLine(s, i, n);
    ArgumentOfLine(s, i, n);
    var t := ArgText(n.arg.value);
    PushValueStart(n.arg.value);
    assert s[i + 5] == s[i + 5..i + 5 + |t|][0] == t[0];
    SkipSpaceAt(s, i + 4, i + 5);
    LiteralIsWholeWord(s, i, "push");
  }

  /** The operand of a push line is read up to the newline. */
  lemma PushLineOperand(s: string, i: nat, n: Node)
    requires n.Opcode? && n.op == Push && n.arg.Some? && IsPushValue(n.arg.value) && LineAt(s, i, SourceText(n))
    ensures i + 5 <= |s| && PushOperand(s, i + 5) == Some((n.arg.value, i + |SourceText(n)|))
  {
    ArgumentOfLine(s, i, n);
    assert |Word(n.op)| == 4;
    PushOperandRoundTrip(s, i + 5, n.arg.value, i + |SourceText(n)|);
  }

  /** A push token is the `push` keyword followed by its operand. */
  lemma PushOpOf(s: string, i: nat, j: nat, n: Node, e: nat)
    requires i <= |s| && n.Opcode? && n.op == Push && n.arg.Some?
    requires Literal(s, i, "push") == Some(j) && PushOperand(s, j) == Some((n.arg.value, e))
    ensures PushOp(s, i) == Some((n, e))
  {
  }

  /** A push line starts with `push` as a whole word, and its operand is read up to the newline. */
  lemma PushLineParts(s: string, i: nat, n: Node)
    requires n.Opcode? && n.op == Push && n.arg.Some? && IsPushValue(n.arg.value) && LineAt(s, i, SourceText(n))
    ensures i + 5 <= |s| && s[i..WordEnd(s, i)] == Word(n.op) && Literal(s, i, "push") == Some(i + 5)
    ensures PushOperand(s, i + 5) == Some((n.arg.value, i + |SourceText(n)|))
  {
    KeywordOfLine(s, i, n);
    PushLineKeyword(s, i, n);
    PushLineOperand(s, i, n);
  }

  /** `push` as a whole word followed by its operand is read by the opcode alternatives. */
  lemma PushBodyAt(s: string, i: nat, n: Node, e: nat)
    requires n.Opcode? && n.op == Push && n.arg.Some?
    requires i + 5 <= |s| && s[i..WordEnd(s, i)] == Word(n.op) && Literal(s, i, "push") == Some(i + 5)
    requires PushOperand(s, i + 5) == Some((n.arg.value, e))
    ensures OpcodeBody(s, i) == Some((n, e))
  {
    PushOpOf(s, i, i + 5, n, e);
    assert Alternative(s, i, FormOf(n.op)) == PushOp(s, i);
    OpcodeBodyOf(s, i, n, e);
  }

  /**
   * What the parser meets on a push line: no label, the keyword, then the
   * operand `n` holds, ending at `e`, then the newline.
   */
  predicate PushLineRead(s: string, i: nat, n: Node, e: nat)
    requires n.Opcode? && n.arg.Some?
  {
    i <= |s| && LabelStatement(s, i).None? && i + 5 <= |s| && s[i..WordEnd(s, i)] == Word(n.op) &&
    Literal(s, i, "push") == Some(i + 5) && PushOperand(s, i + 5) == Some((n.arg.value, e)) &&
    e < |s| && SkipSpace(s, e) == e + 1
  }

  /** A push line is read that way. */
  lemma PushLine(s: string, i: nat, n: Node)
    requires n.Opcode? && n.op == Push && n.arg.Some? && IsPushValue(n.arg.value) && LineAt(s, i, SourceText(n))
    ensures PushLineRead(s, i, n, i + |SourceText(n)|)
  {
    NotALabel(s, i, n);
    PushLineParts(s, i, n);
    OperandLineEnd(s, i, n);
  }

  /** Where it is read that way, the statement read is the push with its operand, up to the next line. */
  lemma PushStatementAt(s: string, i: nat, n: Node, e: nat, f: nat)
    requires n.Opcode? && n.op == Push && n.arg.Some? && PushLineRead(s, i, n, e) && f == e + 1
    ensures Statement(s, i) == Some((n, f))
  {
    PushBodyAt(s, i, n, e);
    OpcodeStatementOf(s, i, n, e, f);
  }

  /** A push line parses back to itself, newline included. */
  lemma PushNodeRoundTrip(s: string, i: nat, n: Node)
    requires n.Opcode? && n.op == Push && n.arg.Some? && IsPushValue(n.arg.value) && LineAt(s, i, SourceText(n))
    ensures Statement(s, i) == Some((n, i + |SourceText(n)| + 1))
  {
    PushLine(s, i, n);
    PushStatementAt(s, i, n, i + |SourceText(n)|, i + |SourceText(n)| + 1);
  }

  // Lines of opcodes that take an identifier.

  /** An opcode other than `push` that carries an operand takes an identifier, from a keyword choice. */
  lemma IdentifierFormOf(op: Op, arg: Option<Arg>)
    requires WellFormedOpcode(op, arg) && op != Push && arg.Some?
    ensures FormOf(op).IdentifierForm? && op in FormOf(op).ops
    ensures arg.value.Text? && IsIdentifier(arg.value.text)
  {
  }

  /** A keyword followed by a blank and the start of an identifier is read as a whole word, the blank skipped. */
  lemma KeywordBlankAt(s: string, i: nat, op: Op, p: nat)
    requires p == i + |Word(op)| + 1 && p < |s| && s[i..i + |Word(op)|] == Word(op)
    requires s[i + |Word(op)|] == ' ' && IsIdentStart(s[p])
    ensures s[i..WordEnd(s, i)] == Word(op) && SkipSpace(s, i + |Word(op)|) == p
  {
    var w := Word(op);
    assert forall k :: 0 <= k < |w| ==> IsWordChar(w[k]);
    WholeWordAt(s, i, w);
    SkipSpaceAt(s, i + |w|, p);
  }

  /** An identifier followed by a newline is read up to the newline. */
  lemma IdentifierToNewline(s: string, p: nat, x: string)
    requires IsIdentifier(x) && p + |x| < |s| && s[p..p + |x|] == x && s[p + |x|] == '\n'
    ensures IsIdentStart(s[p]) && Identifier(s, p) == Some(p + |x|)
  {
    assert s[p] == x[0] by { assert s[p..p + |x|][0] == s[p]; }
    IdentifierAt(s, p, x);
  }

  /** The same, for the line of an opcode with its identifier. */
  lemma IdentifierLineParts(s: string, i: nat, n: Node)
    requires n.Opcode? && n.arg.Some? && n.arg.value.Text? && IsIdentifier(n.arg.value.text)
    requires LineAt(s, i, SourceText(n))
    ensures var p := i + |Word(n.op)| + 1; var e := i + |SourceText(n)|;
      p <= e <= |s| && s[i..WordEnd(s, i)] == Word(n.op) && SkipSpace(s, i + |Word(n.op)|) == p &&
      Identifier(s, p) == Some(e) && s[p..e] == n.arg.value.text
  {
    var w := Word(n.op);
    assert SourceText(n) == w + " " + n.arg.value.text;
    SpacedLine(s, i, w, n.arg.value.text);
    IdentifierToNewline(s, i + |w| + 1, n.arg.value.text);
    KeywordBlankAt(s, i, n.op, i + |w| + 1);
  }

  /** A keyword followed by an identifier is read as the opcode with that identifier. */
  lemma WithIdentifierOf(s: string, i: nat, ops: seq<Op>, n: Node, p: nat, e: nat)
    requires i <= |s| && p <= e <= |s| && n.Opcode? && n.arg == Some(Text(s[p..e]))
    requires Keyword(s, i, ops) == Some((n.op, p)) && Identifier(s, p) == Some(e)
    ensures WithIdentifier(s, i, ops) == Some((n, e))
  {
  }

  /**
   * The keyword of a jmp, jif, call, store, load, gstore or gload, standing
   * as a whole word and followed by its identifier, is read by the keyword
   * choice of its group.
   */
  lemma IdentifierAlternativeAt(s: string, i: nat, n: Node, p: nat, e: nat)
    requires n.Opcode? && n.arg.Some? && n.arg.value.Text? && FormOf(n.op).IdentifierForm? && n.op in FormOf(n.op).ops
    requires i + |Word(n.op)| <= |s| && s[i..WordEnd(s, i)] == Word(n.op) && SkipSpace(s, i + |Word(n.op)|) == p
    requires p <= e <= |s| && Identifier(s, p) == Some(e) && s[p..e] == n.arg.value.text
    ensures Alternative(s, i, FormOf(n.op)) == Some((n, e))
  {
    KeywordFinds(s, i, FormOf(n.op).ops, n.op);
    WithIdentifierOf(s, i, FormOf(n.op).ops, n, p, e);
  }

  /** ... and so by the opcode alternatives. */
  lemma IdentifierBodyAt(s: string, i: nat, n: Node, p: nat, e: nat)
    requires n.Opcode? && n.arg.Some? && n.arg.value.Text? && FormOf(n.op).IdentifierForm? && n.op in FormOf(n.op).ops
    requires i + |Word(n.op)| <= |s| && s[i..WordEnd(s, i)] == Word(n.op) && SkipSpace(s, i + |Word(n.op)|) == p
    requires p <= e <= |s| && Identifier(s, p) == Some(e) && s[p..e] == n.arg.value.text
    ensures OpcodeBody(s, i) == Some((n, e))
  {
    IdentifierAlternativeAt(s, i, n, p, e);
    OpcodeBodyOf(s, i, n, e);
  }

  /**
   * What the parser meets on a line holding the opcode of `n` and its
   * identifier: no label, the keyword, spaces up to `p`, the identifier from
   * `p` to `e`, then the newline.
   */
  predicate IdentifierLineRead(s: string, i: nat, n: Node, p: nat, e: nat)
    requires n.Opcode? && n.arg.Some? && n.arg.value.Text?
  {
    i <= |s| && LabelStatement(s, i).None? && i + |Word(n.op)| <= |s| && s[i..WordEnd(s, i)] == Word(n.op) &&
    SkipSpace(s, i + |Word(n.op)|) == p && p <= e < |s| && Identifier(s, p) == Some(e) &&
    s[p..e] == n.arg.value.text && SkipSpace(s, e) == e + 1
  }

  /** A jmp, jif, call, store, load, gstore or gload line is read that way. */
  lemma IdentifierLine(s: string, i: nat, n: Node)
    requires n.Opcode? && n.arg.Some? && n.arg.value.Text? && IsIdentifier(n.arg.value.text)
    requires LineAt(s, i, SourceText(n))
    ensures IdentifierLineRead(s, i, n, i + |Word(n.op)| + 1, i + |SourceText(n)|)
  {
    NotALabel(s, i, n);
    IdentifierLineParts(s, i, n);
    OperandLineEnd(s, i, n);
  }

  /** Where it is read that way, the statement read is the opcode with its identifier, up to the next line. */
  lemma IdentifierStatementAt(s: string, i: nat, n: Node, p: nat, e: nat, f: nat)
    requires n.Opcode? && n.arg.Some? && n.arg.value.Text? && FormOf(n.op).IdentifierForm? && n.op in FormOf(n.op).ops
    requires IdentifierLineRead(s, i, n, p, e) && f == e + 1
    ensures Statement(s, i) == Some((n, f))
  {
    IdentifierBodyAt(s, i, n, p, e);
    OpcodeStatementOf(s, i, n, e, f);
  }

  /** A jmp, jif, call, store, load, gstore or gload line parses back to itself, newline included. */
  lemma OperandNodeRoundTrip(s: string, i: nat, n: Node)
    requires n.Opcode? && n.arg.Some? && n.arg.value.Text? && IsIdentifier(n.arg.value.text)
    requires FormOf(n.op).IdentifierForm? && n.op in FormOf(n.op).ops && LineAt(s, i, SourceText(n))
    ensures Statement(s, i) == Some((n, i + |SourceText(n)| + 1))
  {
    IdentifierLine(s, i, n);
    IdentifierStatementAt(s, i, n, i + |Word(n.op)| + 1, i + |SourceText(n)|, i + |SourceText(n)| + 1);
  }

  // Label lines, and statements of every kind.

  /** A label written as one line of source is read as a label token, newline included. */
  lemma LabelLineAt(s: string, i: nat, x: string)
    requires IsIdentifier(x) && LineAt(s, i, x + ":")
    ensures var j := i + |x|;
      j + 1 < |s| && Identifier(s, i) == Some(j) && s[i..j] == x && s[j] == ':' && SkipSpace(s, j + 1) == j + 2
  {
    var t := x + ":";
    var j := i + |x|;
    LineText(s, i, t);
    assert s[i..j] == s[i..i + |t|][..|x|];
    assert s[j] == s[i..i + |t|][|x|];
    IdentifierAt(s, i, x);
    SkipSpaceAt(s, j + 1, j + 2);
  }

  /** The same, for the line of a label node. */
  lemma LabelLineParts(s: string, i: nat, n: Node)
    requires n.Label? && IsIdentifier(n.name) && LineAt(s, i, SourceText(n))
    ensures var j := i + |n.name|; var e := i + |SourceText(n)|;
      e == j + 1 && e < |s| && Identifier(s, i) == Some(j) && s[i..j] == n.name && s[j] == ':' && SkipSpace(s, e) == e + 1
  {
    assert SourceText(n) == n.name + ":";
    LabelLineAt(s, i, n.name);
  }

  /** An identifier directly followed by a colon is read as a label. */
  lemma LabelOf(s: string, i: nat, n: Node, j: nat, e: nat)
    requires i <= j < |s| && n == Label(s[i..j]) && Identifier(s, i) == Some(j) && s[j] == ':' && e == j + 1
    ensures LabelStatement(s, i) == Some((n, SkipSpace(s, e)))
  {
  }

  /** A statement is a label whenever a label token can be read at its start. */
  lemma StatementIsLabel(s: string, i: nat, n: Node, e: nat)
    requires i <= |s| && LabelStatement(s, i) == Some((n, e))
    ensures Statement(s, i) == Some((n, e))
  {
  }

  /**
   * A label is tried before an opcode: an argument-less keyword followed
   * directly by a colon could be read as that opcode, yet the statement
   * read there is a label named after the keyword (`pop:` is a label).
   */
  lemma KeywordColonIsLabel(s: string, i: nat, op: Op)
    requires i <= |s| && s[i..WordEnd(s, i)] == Word(op) && WordEnd(s, i) < |s| && s[WordEnd(s, i)] == ':'
    requires WellFormedOpcode(op, None)
    ensures OpcodeStatement(s, i) == Some((Opcode(op, None), i + |Word(op)|))
    ensures Statement(s, i) == Some((Label(Word(op)), SkipSpace(s, i + |Word(op)| + 1)))
  {
    var e := WordEnd(s, i);
    assert e == i + |Word(op)|;
    assert s[i] == Word(op)[0];
    SkipSpaceAt(s, e, e);
    BareFormOf(op);
    BareBodyAt(s, i, Opcode(op, None), e);
  }

  /** A label written as one line of source parses back to itself, newline included. */
  lemma LabelNodeRoundTrip(s: string, i: nat, n: Node)
    requires n.Label? && IsIdentifier(n.name) && LineAt(s, i, SourceText(n))
    ensures Statement(s, i) == Some((n, i + |SourceText(n)| + 1))
  {
    var j := i + |n.name|;
    var e := i + |SourceText(n)|;
    LabelLineParts(s, i, n);
    LabelOf(s, i, n, j, e);
    StatementIsLabel(s, i, n, e + 1);
  }

  /** A statement written as one line of source parses back to itself, newline included. */
  lemma StatementRoundTrip(s: string, i: nat, n: Node)
    requires WellFormed(n) && LineAt(s, i, SourceText(n))
    ensures Statement(s, i) == Some((n, i + |SourceText(n)| + 1))
  {
    if n.Label? {
      LabelNodeRoundTrip(s, i, n);
    } else if n.arg.None? {
      BareNodeRoundTrip(s, i, n);
    } else if n.op == Push {
      PushNodeRoundTrip(s, i, n);
    } else {
      IdentifierFormOf(n.op, n.arg);
      OperandNodeRoundTrip(s, i, n);
    }
  }

  /** One statement read at `i` followed by the rest read where it stops. */
  lemma StatementsCons(s: string, i: nat, n: Node, j: nat, ns: seq<Node>)
    requires ns != [] && n == ns[0] && i <= j <= |s| && Statement(s, i) == Some((n, j)) && Statements(s, j) == Ok(ns[1..])
    ensures Statements(s, i) == Ok(ns)
  {
    assert [ns[0]] + ns[1..] == ns;
  }

  /** Nothing is read from the end of the input. */
  lemma NoStatements(s: string, i: nat)
    requires i <= |s| && s[i..] == []
    ensures Statements(s, i) == Ok([])
  {
    assert i == |s|;
  }

  /** Text followed by a newline and then by something that does not start with whitespace is a line. */
  lemma LineBefore(s: string, i: nat, t: string, rest: string)
    requires i <= |s| && s[i..] == t + "\n" + rest && (rest == [] || !IsSpace(rest[0]))
    ensures LineAt(s, i, t) && s[i + |t| + 1..] == rest
  {
    var e := i + |t|;
    assert s[i..e + 1] == s[i..][..|t| + 1] == t + "\n";
    OccursSlice(s, i, t + "\n");
    assert s[i..][|t| + 1..] == s[e + 1..];
    if rest != [] { assert s[e + 1] == rest[0]; }
  }

  /** The rendering of a list of well-formed statements does not start with whitespace. */
  lemma UnparseStart(ns: seq<Node>)
    requires forall n :: n in ns ==> WellFormed(n)
    ensures Unparse(ns) == [] || !IsSpace(Unparse(ns)[0])
  {
    if ns != [] {
      assert ns[0] in ns;
      SourceTextStartsWithWordChar(ns[0]);
      assert Unparse(ns)[0] == SourceText(ns[0])[0];
    }
  }

  /** Every statement of a list is well formed exactly when its head and the statements of its tail are. */
  lemma WellFormedSplit(ns: seq<Node>)
    requires ns != [] && forall n :: n in ns ==> WellFormed(n)
    ensures WellFormed(ns[0]) && forall n :: n in ns[1..] ==> WellFormed(n)
  {
    assert ns[0] in ns;
  }

  /** The first rendered statement of a list sits on a line of its own, followed by the rest. */
  lemma FirstLine(s: string, i: nat, ns: seq<Node>)
    requires i <= |s| && s[i..] == Unparse(ns) && ns != []
    requires forall n :: n in ns ==> WellFormed(n)
    ensures WellFormed(ns[0]) && LineAt(s, i, SourceText(ns[0]))
    ensures var e := i + |SourceText(ns[0])| + 1; e <= |s| && s[e..] == Unparse(ns[1..])
    ensures forall n :: n in ns[1..] ==> WellFormed(n)
  {
    WellFormedSplit(ns);
    UnparseStart(ns[1..]);
    LineBefore(s, i, SourceText(ns[0]), Unparse(ns[1..]));
  }

  /** Every rendered statement list parses back to itself from its start. */
  lemma {:induction false} StatementsRoundTrip(s: string, i: nat, ns: seq<Node>)
    requires i <= |s| && s[i..] == Unparse(ns)
    requires forall n :: n in ns ==> WellFormed(n)
    ensures Statements(s, i) == Ok(ns)
    decreases |ns|
  {
    if ns == [] {
      NoStatements(s, i);
    } else {
      var n := ns[0];
      var e := i + |SourceText(n)| + 1;
      FirstLine(s, i, ns);
      StatementRoundTrip(s, i, n);
      StatementsRoundTrip(s, e, ns[1..]);
      StatementsCons(s, i, n, e, ns);
    }
  }

  /** Parsing the rendering of well-formed statements gives them back. */
  lemma ParseRoundTrip(ns: seq<Node>)
    requires forall n :: n in ns ==> WellFormed(n)
    ensures Parse(Unparse(ns)) == Ok(ns)
  {
    var s := Unparse(ns);
    if ns != [] {
      SourceTextStartsWithWordChar(ns[0]);
      assert s[0] == SourceText(ns[0])[0];
    }
    assert SkipSpace(s, 0) == 0 by { SkipSpaceAt(s, 0, 0); }
    StatementsRoundTrip(s, 0, ns);
  }

  /** Whatever the parser accepts, it accepts again in the canonical one-statement-per-line layout. */
  lemma ParseIsCanonical(source: string)
    requires Parse(source).Ok?
    ensures Parse(Unparse(Parse(source).value)) == Parse(source)
  {
    StatementsWellFormed(source, SkipSpace(source, 0));
    ParseRoundTrip(Parse(source).value);
  }

  // The whole input must be read.

  /** A keyword choice fails where the character cannot start a word. */
  lemma {:induction false} KeywordNotAtStart(s: string, i: nat, ops: seq<Op>)
    requires i < |s| && !IsIdentStart(s[i])
    ensures Keyword(s, i, ops).None?
    decreases |ops|
  {
    if ops != [] {
      KeywordNotAtStart(s, i, ops[1..]);
    }
  }

  /** No statement starts with a character that can start neither a keyword nor a label. */
  lemma StatementNotAtStart(s: string, i: nat)
    requires i < |s| && !IsIdentStart(s[i])
    ensures Statement(s, i).None?
  {
    forall j | 0 <= j < |OpcodeForms| ensures Alternative(s, i, OpcodeForms[j]).None? {
      match OpcodeForms[j]
      case PushForm =>
      case BareForm(ops) => KeywordNotAtStart(s, i, ops);
      case IdentifierForm(ops) => KeywordNotAtStart(s, i, ops);
    }
    FirstOfNone(s, i, OpcodeForms);
  }

  /** A line, then more lines, then more text: the line stands first, followed by all the rest. */
  lemma LineThen(t: string, u: string, rest: string)
    requires u == [] || !IsSpace(u[0])
    requires rest == [] || !IsSpace(rest[0])
    ensures (t + "\n" + u) + rest == t + "\n" + (u + rest)
    ensures var tail := u + rest; tail == [] || !IsSpace(tail[0])
  {
    if u != [] {
      assert (u + rest)[0] == u[0];
    }
  }

  /** The first rendered statement of a list sits on a line of its own, followed by the rest and whatever comes after. */
  lemma FirstLineBefore(s: string, i: nat, ns: seq<Node>, rest: string)
    requires i <= |s| && s[i..] == Unparse(ns) + rest && ns != []
    requires forall n :: n in ns ==> WellFormed(n)
    requires rest == [] || !IsSpace(rest[0])
    ensures WellFormed(ns[0]) && LineAt(s, i, SourceText(ns[0]))
    ensures var e := i + |SourceText(ns[0])| + 1; e <= |s| && s[e..] == Unparse(ns[1..]) + rest
    ensures forall n :: n in ns[1..] ==> WellFormed(n)
  {
    WellFormedSplit(ns);
    UnparseStart(ns[1..]);
    LineThen(SourceText(ns[0]), Unparse(ns[1..]), rest);
    LineBefore(s, i, SourceText(ns[0]), Unparse(ns[1..]) + rest);
  }

  /** A well-formed node on a line of its own is read as itself, up to the start of the next line. */
  lemma StatementOfLine(s: string, i: nat, n: Node) returns (e: nat)
    requires WellFormed(n) && LineAt(s, i, SourceText(n))
    ensures e == i + |SourceText(n)| + 1 && e <= |s| && Statement(s, i) == Some((n, e))
  {
    e := i + |SourceText(n)| + 1;
    StatementRoundTrip(s, i, n);
  }

  /** The first of the rendered statements is read as itself, and reading goes on where the others start. */
  lemma FirstStatementBefore(s: string, i: nat, ns: seq<Node>, rest: string) returns (e: nat)
    requires i <= |s| && s[i..] == Unparse(ns) + rest && ns != []
    requires forall n :: n in ns ==> WellFormed(n)
    requires rest == [] || !IsSpace(rest[0])
    ensures e <= |s| && Statement(s, i) == Some((ns[0], e))
    ensures s[e..] == Unparse(ns[1..]) + rest && forall n :: n in ns[1..] ==> WellFormed(n)
  {
    FirstLineBefore(s, i, ns, rest);
    e := StatementOfLine(s, i, ns[0]);
  }

  /** Statements read up to text at which reading fails make the whole reading fail. */
  lemma {:induction false} StatementsStopAt(s: string, i: nat, ns: seq<Node>, rest: string)
    requires i <= |s| && s[i..] == Unparse(ns) + rest
    requires forall n :: n in ns ==> WellFormed(n)
    requires rest != [] && !IsSpace(rest[0])
    requires |rest| <= |s| && Statements(s, |s| - |rest|) == Err(SyntaxError)
    ensures Statements(s, i) == Err(SyntaxError)
    decreases |ns|
  {
    if ns == [] {
      assert |s[i..]| == |rest|;
    } else {
      var e := FirstStatementBefore(s, i, ns, rest);
      StatementsStopAt(s, e, ns[1..], rest);
      StatementsFailAfter(s, i, ns[0], e);
    }
  }

  /**
   * The parser reads to the end of the input: a program followed by text
   * that the parser rejects is rejected as a whole, not read as the program
   * before it.
   */
  lemma ParseRejectsLeftover(ns: seq<Node>, rest: string)
    requires forall n :: n in ns ==> WellFormed(n)
    requires rest != [] && !IsSpace(rest[0])
    requires Statements(Unparse(ns) + rest, |Unparse(ns)|) == Err(SyntaxError)
    ensures Parse(Unparse(ns) + rest) == Err(SyntaxError)
  {
    var s := Unparse(ns) + rest;
    UnparseStart(ns);
    assert !IsSpace(s[0]) by {
      if ns != [] { assert s[0] == Unparse(ns)[0]; } else { assert s[0] == rest[0]; }
    }
    assert SkipSpace(s, 0) == 0;
    assert s[0..] == s;
    StatementsStopAt(s, 0, ns, rest);
  }

  /** A program followed by a character that can start no statement is rejected. */
  lemma ParseRejectsTrailing(ns: seq<Node>, c: char)
    requires forall n :: n in ns ==> WellFormed(n)
    requires !IsSpace(c) && !IsIdentStart(c)
    ensures Parse(Unparse(ns) + [c]) == Err(SyntaxError)
  {
    var s := Unparse(ns) + [c];
    assert s[|Unparse(ns)|] == c;
    StatementNotAtStart(s, |Unparse(ns)|);
    ParseRejectsLeftover(ns, [c]);
  }

  /** A keyword choice fails at a whole word that is no keyword. */
  lemma {:induction false} KeywordNotWord(s: string, p: nat, ops: seq<Op>)
    requires p <= |s| && forall op :: Word(op) != s[p..WordEnd(s, p)]
    ensures Keyword(s, p, ops).None?
    decreases |ops|
  {
    if ops != [] {
      LiteralIsWholeWord(s, p, Word(ops[0]));
      KeywordNotWord(s, p, ops[1..]);
    }
  }

  /** An identifier that is no keyword and ends the input starts no statement. */
  lemma UnknownWordNotStatement(s: string, p: nat, w: string)
    requires p <= |s| && s[p..] == w && IsIdentifier(w)
    requires forall op :: Word(op) != w
    ensures Statement(s, p).None?
  {
    forall k | p <= k < |s| ensures IsWordChar(s[k]) {
      assert s[k] == w[k - p];
    }
    WordEndAt(s, p, |s|);
    assert s[p..WordEnd(s, p)] == w;
    assert s[p] == w[0];
    forall j | 0 <= j < |OpcodeForms| ensures Alternative(s, p, OpcodeForms[j]).None? {
      match OpcodeForms[j]
      case PushForm => LiteralIsWholeWord(s, p, Word(Push));
      case BareForm(ops) => KeywordNotWord(s, p, ops);
      case IdentifierForm(ops) => KeywordNotWord(s, p, ops);
    }
    FirstOfNone(s, p, OpcodeForms);
  }

  /** A program followed by a word that is neither a keyword nor a label is rejected. */
  lemma ParseRejectsUnknownWord(ns: seq<Node>, w: string)
    requires forall n :: n in ns ==> WellFormed(n)
    requires IsIdentifier(w) && forall op :: Word(op) != w
    ensures Parse(Unparse(ns) + w) == Err(SyntaxError)
  {
    var s := Unparse(ns) + w;
    assert s[|Unparse(ns)|..] == w;
    UnknownWordNotStatement(s, |Unparse(ns)|, w);
    ParseRejectsLeftover(ns, w);
  }

  /** The pieces of `push`, a numeral and a point at the end of the input. */
  lemma DanglingPointText(s: string, p: nat, t: string)
    requires p + |t| + 6 == |s| && s[p..] == "push " + t + "."
    ensures s[p..p + 4] == "push" && s[p + 4] == ' ' && s[p + 5..|s| - 1] == t && s[|s| - 1] == '.'
  {
    var u := s[p..];
    assert s[p..p + 4] == u[..4];
    assert s[p + 4] == u[4];
    assert s[p + 5..|s| - 1] == u[5..|u| - 1];
    assert s[|s| - 1] == u[|u| - 1];
  }

  /** A numeral followed by a point that ends the input is read as an integer, the point left over. */
  lemma DanglingPointOperand(s: string, q: nat, n: nat)
    requires q + |NatToString(n)| + 1 == |s| && s[q..|s| - 1] == NatToString(n) && s[|s| - 1] == '.'
    ensures IsDigit(s[q]) && PushOperand(s, q) == Some((Int(n), |s| - 1))
  {
    DigitsEndAt(s, q, |s| - 1);
    assert s[q] == s[q..|s| - 1][0];
  }

  /** `push` followed by a blank and a digit is read as the keyword, the blank skipped, and is no label. */
  lemma PushKeywordBeforeDigit(s: string, p: nat)
    requires p + 5 < |s| && s[p..p + 4] == "push" && s[p + 4] == ' ' && IsDigit(s[p + 5])
    ensures s[p..WordEnd(s, p)] == Word(Push) && Literal(s, p, "push") == Some(p + 5)
    ensures LabelStatement(s, p).None?
  {
    WholeWordAt(s, p, "push");
    SkipSpaceAt(s, p + 4, p + 5);
    LiteralIsWholeWord(s, p, "push");
    IdentifierAt(s, p, "push");
  }

  /** `push`, a blank and an integer operand ending at the last character: the push is read, up to it. */
  lemma DanglingPointStatement(s: string, p: nat, n: nat)
    requires p + 5 < |s| && s[p..p + 4] == "push" && s[p + 4] == ' ' && IsDigit(s[p + 5])
    requires PushOperand(s, p + 5) == Some((Int(n), |s| - 1)) && s[|s| - 1] == '.'
    ensures Statement(s, p) == Some((Opcode(Push, Some(Int(n))), |s| - 1))
  {
    PushKeywordBeforeDigit(s, p);
    PushBodyAt(s, p, Opcode(Push, Some(Int(n))), |s| - 1);
    SkipSpaceAt(s, |s| - 1, |s| - 1);
    OpcodeStatementOf(s, p, Opcode(Push, Some(Int(n))), |s| - 1, |s| - 1);
  }

  /** A statement followed by input that fails to parse makes the whole sequence fail. */
  lemma StatementsFailAfter(s: string, i: nat, n: Node, j: nat)
    requires i <= |s| && Statement(s, i) == Some((n, j)) && Statements(s, j) == Err(SyntaxError)
    ensures Statements(s, i) == Err(SyntaxError)
  {
  }

  /** The point left after that push starts no statement, so the statements from `p` fail. */
  lemma DanglingPointRejected(s: string, p: nat, n: nat)
    requires p + 5 < |s| && s[p..p + 4] == "push" && s[p + 4] == ' ' && IsDigit(s[p + 5])
    requires PushOperand(s, p + 5) == Some((Int(n), |s| - 1)) && s[|s| - 1] == '.'
    ensures Statements(s, p) == Err(SyntaxError)
  {
    assert Statements(s, |s| - 1) == Err(SyntaxError) by {
      StatementNotAtStart(s, |s| - 1);
    }
    DanglingPointStatement(s, p, n);
    StatementsFailAfter(s, p, Opcode(Push, Some(Int(n))), |s| - 1);
  }

  /**
   * `push` with a numeral and a point but no digit after it is an error:
   * the float alternative fails, the integer is read and the point is left.
   */
  lemma ParseRejectsDanglingPoint(ns: seq<Node>, n: nat)
    requires forall n :: n in ns ==> WellFormed(n)
    ensures Parse(Unparse(ns) + ("push " + NatToString(n) + ".")) == Err(SyntaxError)
  {
    var rest := "push " + NatToString(n) + ".";
    var s := Unparse(ns) + rest;
    var p := |Unparse(ns)|;
    assert s[p..] == rest;
    DanglingPointText(s, p, NatToString(n));
    DanglingPointOperand(s, p + 5, n);
    DanglingPointRejected(s, p, n);
    ParseRejectsLeftover(ns, rest);
  }
}

=== FILE: Resolver.dfy ===
/**
 * The first pass of the backend: every label is given the address of the
 * next opcode, that is the number of opcodes before it, and a label declared
 * again takes the address of its last declaration.
 */
module Resolver {
  import opened Syntax

  /** The number of opcode nodes in `ast`: the address the next opcode gets. */
  function CountOpcodes(ast: seq<Node>): (c: nat)
    ensures c <= |ast|
    ensures c == |ast| <==> forall k :: 0 <= k < |ast| ==> ast[k].Opcode?
  {
    if ast == [] then 0
    else
      var init := ast[..|ast| - 1];
      assert forall k :: 0 <= k < |init| ==> init[k] == ast[k];
      CountOpcodes(init) + (if ast[|ast| - 1].Opcode? then 1 else 0)
  }

  /** The label table the first pass builds: each name mapped to the address of its last declaration. */
  function LabelTable(ast: seq<Node>): map<string, nat> {
    if ast == [] then map[]
    else
      var init := ast[..|ast| - 1];
      var n := ast[|ast| - 1];
      if n.Label? then LabelTable(init)[n.name := CountOpcodes(init)] else LabelTable(init)
  }

  /** Opcodes are counted piece by piece. */
  lemma {:induction false} CountOpcodesAppend(a: seq<Node>, b: seq<Node>)
    ensures CountOpcodes(a + b) == CountOpcodes(a) + CountOpcodes(b)
    decreases |b|
  {
    if b == [] {
      assert a + b == a;
    } else {
      var init := b[..|b| - 1];
      assert (a + b)[..|a + b| - 1] == a + init;
      assert (a + b)[|a + b| - 1] == b[|b| - 1];
      CountOpcodesAppend(a, init);
    }
  }

  /** Addresses only grow along the program: a prefix holds no more opcodes than a longer prefix. */
  lemma CountOpcodesMonotone(ast: seq<Node>, j: nat, k: nat)
    requires j <= k <= |ast|
    ensures CountOpcodes(ast[..j]) <= CountOpcodes(ast[..k])
  {
    assert ast[..k] == ast[..j] + ast[j..k];
    CountOpcodesAppend(ast[..j], ast[j..k]);
  }

  /** The opcode at `j` is the one with address `CountOpcodes(ast[..j])`: the count goes up by one there. */
  lemma CountOpcodesStep(ast: seq<Node>, j: nat)
    requires j < |ast|
    ensures CountOpcodes(ast[..j + 1]) == CountOpcodes(ast[..j]) + (if ast[j].Opcode? then 1 else 0)
  {
    assert ast[..j + 1][..j] == ast[..j];
  }

  /** A name is in the table exactly when the program declares it. */
  lemma {:induction false} LabelTableDomain(ast: seq<Node>, name: string)
    ensures name in LabelTable(ast) <==> exists k :: 0 <= k < |ast| && ast[k] == Label(name)
    decreases |ast|
  {
    if ast != [] {
      var init := ast[..|ast| - 1];
      LabelTableDomain(init, name);
      if exists k :: 0 <= k < |init| && init[k] == Label(name) {
        var k :| 0 <= k < |init| && init[k] == Label(name);
        assert ast[k] == Label(name);
      }
      if exists k :: 0 <= k < |ast| && ast[k] == Label(name) {
        var k :| 0 <= k < |ast| && ast[k] == Label(name);
        if k < |init| { assert init[k] == Label(name); }
      }
    }
  }

  /**
   * Last declaration wins: a label's address is the number of opcodes
   * before its last declaration.
   */
  lemma {:induction false} LabelTableLastWins(ast: seq<Node>, k: nat)
    requires k < |ast| && ast[k].Label?
    requires forall j :: k < j < |ast| ==> ast[j] != Label(ast[k].name)
    ensures ast[k].name in LabelTable(ast)
    ensures LabelTable(ast)[ast[k].name] == CountOpcodes(ast[..k])
    decreases |ast|
  {
    var init := ast[..|ast| - 1];
    if k < |ast| - 1 {
      assert init[k] == ast[k];
      assert init[..k] == ast[..k];
      forall j | k < j < |init| ensures init[j] != Label(init[k].name) {
        assert init[j] == ast[j];
      }
      LabelTableLastWins(init, k);
      assert ast[|ast| - 1] != Label(ast[k].name);
    } else {
      assert init == ast[..k];
    }
  }

  /** A label's address never exceeds the number of opcodes in the program. */
  lemma {:induction false} LabelTableBound(ast: seq<Node>, name: string)
    requires name in LabelTable(ast)
    ensures LabelTable(ast)[name] <= CountOpcodes(ast)
    decreases |ast|
  {
    var init := ast[..|ast| - 1];
    var n := ast[|ast| - 1];
    if !(n.Label? && n.name == name) {
      LabelTableBound(init, name);
    }
  }

  /**
   * The first pass over the program: labels are entered with the current
   * address, which each opcode advances by one.
   */
  method ResolveLabels(ast: seq<Node>) returns (labels: map<string, nat>, address: nat)
    ensures labels == LabelTable(ast)
    ensures address == CountOpcodes(ast)
  {
    labels := map[];
    address := 0;
    var i := 0;
    while i < |ast|
      invariant 0 <= i <= |ast|
      invariant labels == LabelTable(ast[..i])
      invariant address == CountOpcodes(ast[..i])
    {
      var node := ast[i];
      assert ast[..i + 1][..i] == ast[..i];
      if node.Label? {
        labels := labels[node.name := address];
      } else {
        address := address + 1;
      }
      i := i + 1;
    }
    assert ast[..i] == ast;
  }
}

=== FILE: Syntax.dfy ===
/**
 * The values the parser produces and the backend consumes: a program is a
 * sequence of nodes, each a label declaration or an opcode with an optional
 * argument.
 */
module Syntax {
  import opened Chars

  datatype Option<T> = None | Some(value: T)

  /** The errors that stop assembly. */
  datatype Error = SyntaxError | UndefinedLabel(name: string)

  datatype Result<T> = Ok(value: T) | Err(error: Error)

  /** Every opcode the grammar recognises, one per keyword. */
  datatype Op =
    | Push | Pop | Dup | Dot
    | Add | Sub | Mul | Div | Pow | Min | Max
    | Jmp | Jif | Call | Ret
    | Eq | Ne | Lt | Le | Gt | Ge
    | Store | Load | GStore | GLoad
    | Hlt

  /** The keyword that spells `op` in assembly source: a non-empty lower-case word. */
  function Word(op: Op): (w: string)
    ensures 0 < |w| && forall k :: 0 <= k < |w| ==> 'a' <= w[k] <= 'z'
  {
    match op
    case Push => "push"  case Pop => "pop"  case Dup => "dup"  case Dot => "dot"
    case Add => "add"  case Sub => "sub"  case Mul => "mul"  case Div => "div"
    case Pow => "pow"  case Min => "min"  case Max => "max"
    case Jmp => "jmp"  case Jif => "jif"  case Call => "call"  case Ret => "ret"
    case Eq => "eq"  case Ne => "ne"  case Lt => "lt"  case Le => "le"  case Gt => "gt"  case Ge => "ge"
    case Store => "store"  case Load => "load"  case GStore => "gstore"  case GLoad => "gload"
    case Hlt => "hlt"
  }

  /** No two opcodes share a keyword. */
  lemma WordInjective(a: Op, b: Op)
    requires Word(a) == Word(b)
    ensures a == b
  {
    var w := Word(a);
    assert |w| == |Word(b)| && w[0] == Word(b)[0];
    if |w| > 1 { assert w[1] == Word(b)[1]; }
    if |w| > 2 { assert w[2] == Word(b)[2]; }
  }

  /**
   * The opcode string stored in a node and written to the output: the
   * keyword itself, except that the comparisons become `iseq` ... `isge` and
   * the variable operations `store_l`, `load_l`, `store_g`, `load_g`.
   */
  function Name(op: Op): string {
    match op
    case Eq => "iseq"  case Ne => "isneq"  case Lt => "islt"  case Le => "isle"
    case Gt => "isgt"  case Ge => "isge"
    case Store => "store_l"  case Load => "load_l"  case GStore => "store_g"  case GLoad => "load_g"
    case _ => Word(op)
  }

  /** The opcodes whose argument is a label: `call`, `jmp`, `jif`. */
  predicate IsBranch(op: Op) {
    op == Call || op == Jmp || op == Jif
  }

  /**
   * An opcode argument: an integer (also what `true`/`false` become), the
   * text of a float literal, or a string (a label or variable name, or a
   * `push` string kept with its leading `/`).
   */
  datatype Arg = Int(value: nat) | Float(text: string) | Text(text: string)

  datatype Node = Label(name: string) | Opcode(op: Op, arg: Option<Arg>)

  /** An argument as Python's `f"{arg}"` writes it. */
  function ArgText(a: Arg): string {
    match a
    case Int(n) => NatToString(n)
    case Float(t) => t
    case Text(t) => t
  }

  /** `[A-Za-z_][A-Za-z0-9_]*` */
  predicate IsIdentifier(t: string) {
    0 < |t| && IsIdentStart(t[0]) && forall k :: 0 <= k < |t| ==> IsWordChar(t[k])
  }

  /** `[0-9]*[.][0-9]+` */
  predicate IsFloatText(t: string) {
    exists p :: 0 <= p < |t| - 1 && t[p] == '.' && AllDigits(t[..p]) && AllDigits(t[p + 1..])
  }

  /** What `push` may carry: a number, or `/` followed by one identifier. */
  predicate IsPushValue(a: Arg) {
    match a
    case Int(_) => true
    case Float(t) => IsFloatText(t)
    case Text(t) => 0 < |t| && t[0] == '/' && IsIdentifier(t[1..])
  }

  /** The shape of argument each opcode takes in the grammar. */
  predicate WellFormedOpcode(op: Op, arg: Option<Arg>) {
    match op
    case Push => arg.Some? && IsPushValue(arg.value)
    case Jmp | Jif | Call | Store | Load | GStore | GLoad =>
      arg.Some? && arg.value.Text? && IsIdentifier(arg.value.text)
    case _ => arg.None?
  }

  /** A node the parser can produce. */
  predicate WellFormed(n: Node) {
    match n
    case Label(name) => IsIdentifier(name)
    case Opcode(op, arg) => WellFormedOpcode(op, arg)
  }
}
